=== FILE: README.md ===
# pdf-rag-system core, modelled in Dafny

This project models the retrieval, caching and prompt-formatting logic of a
question-answering system over PDF documents. It covers four pieces:

- **Query expansion** (`QueryExpansion`). The language model's reply is turned
  into a list of queries: the original question first, then every non-blank
  line of the reply, stripped.
- **Ensemble retrieval** (`Ensemble`). This is a weighted union of several
  retrievers.
  - Every passage is keyed by `"{page_content}_{source}_{page}"`.
  - Every occurrence adds its retriever's weight to its key's score.
  - The first passage seen under a key is the one kept.
  - The result is sorted by score, highest first. Python's sort is stable, so
    equal scores keep first-seen order.
- **Multi-query retrieval** (`MultiQuery`). One retriever is run for every
  expanded query. The result keeps the first passage per key, in the order the
  keys were first met.
- **Answer cache** (`Cache`, with `Json` for the stored values). The cache is an
  index from query hash to `{query, timestamp}`, one JSON payload file per hash,
  and an index file.
  - Lookups expire after seven days.
  - Saves overwrite.
  - Clearing removes the `.json` files.
  - The statistics report the entry count and the oldest and newest index
    times of the indexed hashes that have a payload file.

It also covers the two `_format_docs` functions (`Formatting`), which lay out
retrieved passages as prompt context.

**What becomes a parameter.** Everything outside the logic is an explicit
parameter:
- a retriever is a function from query to passages;
- the model's reply is a string;
- the hash function is any function from query to name;
- the clock is a `now` in seconds;
- every file write comes with its outcome: completed, failed to open, or
  truncated then failed;
- every file removal comes with its outcome: removed, or failed and left in
  place.

The cache directory is a value: a map from hash to payload file, which may be
unreadable, plus the index file if present. Operations return the new cache
instead of mutating one.

**Supporting modules.**
- `Text`: Python's `str.isspace`, `strip`, `split`, `join` and `str(int)`.
- `Seqs`: first occurrence and distinctness.
- `Documents`: metadata scalars, Python truthiness, and the composite key.
- `Wrappers`: `Option` and `Result`.

**Worked example** (`Ensemble.FuseExample`). Retriever A (weight 2.0)
returns p1, p2 and retriever B (weight 1.0) returns p2, p3. The scores are
p1 2.0, p2 3.0 and p3 1.0, so the result is p2, p1, p3.

## Model

| member | source | states |
|---|---|---|
| Text.Split | advanced_retrieval.py:118 | `result.split("\n")` always yields at least one piece, no piece contains the separator, and joining the pieces with it gives back the reply |
| Text.SplitFirstPiece | cache_manager.py:219 | the first piece of a split is everything before the first separator, or the whole string when there is none |
| Text.SplitUnique | advanced_retrieval.py:118 | any separator-free list of at least one piece that joins back to `s` is exactly `Split(s)`: the split is the unique such decomposition |
| Text.StripIdempotent | advanced_retrieval.py:118 | stripping a stripped line changes nothing |
| Text.StripIsInfix | advanced_retrieval.py:118 | a stripped line is a contiguous part of the original with only whitespace removed before and after it |
| Text.JoinHasParts | rag_generator.py:107 | every part of a `"\n".join` occurs verbatim in the joined string |
| Text.JoinAppend | rag_generator.py:99-107 | joining one more part appends the separator and the part, which is the loop's append followed by the final join |
| Text.DecimalRoundTrip | evaluation.py:102 | the decimal text of a natural number reads back as that number, so `{i+1}` in a header identifies the position |
| Documents.CompositeKey | advanced_retrieval.py:175 | the key starts with the passage text and is at least two characters longer (the two underscores) |
| Documents.SameFieldsSameKey | advanced_retrieval.py:175 | passages that agree on text and on the printed source and page share a key, whatever else their metadata holds |
| Documents.KeyConflatesDistinctPassages | advanced_retrieval.py:175 | distinct passages can share a key: an underscore moved between text and source, page `3` against page `"3"`, a missing source against an empty one |
| QueryExpansion.NonBlankLines | advanced_retrieval.py:118 | every kept line is non-empty and stripped, there are no more kept lines than input lines, and every input line whose strip is non-empty survives |
| QueryExpansion.NonBlankLineOrigin | advanced_retrieval.py:118 | every kept line is the strip of some input line |
| QueryExpansion.NonBlankLinesAppend | advanced_retrieval.py:118 | filtering distributes over concatenation, so kept lines stay in reply order |
| QueryExpansion.NonBlankLinesCount | advanced_retrieval.py:118 | all lines survive exactly when none is blank, and none survives exactly when all are blank |
| QueryExpansion.NonBlankLinesExactCount | advanced_retrieval.py:118 | the number of kept lines is exactly the number of input lines whose strip is non-empty |
| QueryExpansion.QueryCount | advanced_retrieval.py:118-121 | the query list has one element more than the reply has non-blank lines |
| QueryExpansion.GenerateMultiQueries | advanced_retrieval.py:117-123 | the first query is the original question verbatim; the rest are the reply's non-blank lines, stripped, in order, each non-empty and without a line break |
| QueryExpansion.OnlyOriginalWhenReplyBlank | advanced_retrieval.py:118-121 | exactly one query comes back if and only if the reply is entirely whitespace |
| QueryExpansion.SingleLineReply | advanced_retrieval.py:118-121 | a one-line, non-blank reply gives exactly the original and the stripped line, even when they are equal: the original is never deduplicated away |
| Ensemble.NewEnsemble | advanced_retrieval.py:131-150 | construction succeeds if and only if weights are omitted or there is one per retriever; omitted weights are all 1.0; a length mismatch is an error, raised before any retrieval (the model's error value carries the two lengths; Python's message does not) |
| Ensemble.OffsetMonotone | advanced_retrieval.py:169-173 | every passage of an earlier retriever is visited before every passage of a later one |
| Ensemble.OccurrenceAt | advanced_retrieval.py:169-175 | the passage at rank j of retriever i is visited, with that retriever's weight, at the number of passages of earlier retrievers plus j |
| Ensemble.OccurrenceOrigin | advanced_retrieval.py:169-175 | every visited hit comes from some retriever's list at some rank |
| Ensemble.ScoreOfAbsentKey | advanced_retrieval.py:177-184 | a key never visited has score zero |
| Ensemble.AccumulateTallies | advanced_retrieval.py:166-184 | the score dictionary has one entry per visited key, in first-seen order, holding the first passage under the key and the sum of the weights of all its occurrences |
| Ensemble.SortByScoreRanked | advanced_retrieval.py:187 | the sort yields non-increasing scores, with equal scores in first-seen order, as a stable descending sort does |
| Ensemble.RankFuses | advanced_retrieval.py:186-190 | accumulating and then sorting gives one passage per key, every key present, the first passage under each, ordered by total weight with ties in first-seen order |
| Ensemble.Fuse | advanced_retrieval.py:165-192 | the result is the fused ranking of all hits, in retriever order then rank order |
| Ensemble.FuseCoversResults | advanced_retrieval.py:169-190 | every passage any retriever returned has its key in the result, and every passage of the result was returned by some retriever |
| Ensemble.FuseOfNothing | advanced_retrieval.py:165-192 | no retrievers, or retrievers returning nothing, give an empty result |
| Ensemble.GetRelevantDocuments | advanced_retrieval.py:152-192 | for a well-formed ensemble: the fused ranking of every retriever's results for the query, covering all returned keys and returning only returned passages |
| Ensemble.FuseExample | advanced_retrieval.py:165-192 | with A (2.0) returning p1, p2 and B (1.0) returning p2, p3 and distinct keys, the result is p2, p1, p3 |
| MultiQuery.DedupByKey | advanced_retrieval.py:227-242 | the result is no longer than the input and holds only input passages |
| MultiQuery.DedupIsAccumulate | advanced_retrieval.py:233-239 | deduplication is the ensemble's accumulation with scores dropped: both keep the first passage per key in first-seen order |
| MultiQuery.DedupByKeyFirstPerKey | advanced_retrieval.py:227-242 | the result has distinct keys, exactly the keys of the input, the first passage under each, in the order keys are first met |
| MultiQuery.DedupOfDistinct | advanced_retrieval.py:233-239 | passages whose keys are already distinct pass through unchanged |
| MultiQuery.DedupIdempotent | advanced_retrieval.py:233-239 | deduplicating twice is deduplicating once |
| MultiQuery.Flatten | advanced_retrieval.py:230-233 | a passage is in the concatenated results if and only if some query returned it |
| MultiQuery.DedupOfFlatten | advanced_retrieval.py:230-242 | every passage of any query is represented by its key, and only returned passages appear |
| MultiQuery.RetrieveAll | advanced_retrieval.py:227-244 | for a list of queries: first passage per key of the concatenated per-query results, covering every returned key, only returned passages |
| MultiQuery.GetRelevantDocuments | advanced_retrieval.py:213-244 | first passage per key over the expanded queries' results; every passage for the original query is represented; every result passage came from some expanded query |
| MultiQuery.NoResultsNoDocs | advanced_retrieval.py:227-244 | when no query finds anything the result is empty |
| MultiQuery.BlankReplySearchesOnce | advanced_retrieval.py:224-244 | a blank reply means one search: the result is the original query's passages with repeated keys dropped |
| Json.JsonToScalar | cache_manager.py:88-101 | reading a JSON value as metadata succeeds exactly for strings, integers, booleans and null, and inverts the encoding |
| Json.MetaFromJson | cache_manager.py:98-101 | stored metadata reads back if and only if every value is a scalar, and then re-encodes to the stored object |
| Json.SerializeDoc | cache_manager.py:73-86 | a passage is stored as an object with exactly the fields page_content and metadata |
| Json.DeserializeDoc | cache_manager.py:88-101 | decoding succeeds if and only if the value is an object with a string page_content and an object of scalars as metadata (other fields ignored), and then returns those two; a non-object, a missing page_content and a missing metadata fail with that error |
| Json.DocRoundTrip | cache_manager.py:73-101 | deserialising a serialised passage gives back the same text and metadata |
| Cache.Open | cache_manager.py:20-49 | opening a cache over a directory takes the stored index, or an empty one when the index file is missing or unreadable |
| Cache.WriteIndex | cache_manager.py:51-59 | a completed write makes the index file read back as the index; a failed open leaves the file; a truncated write reads back as empty |
| Cache.EncodePayload | cache_manager.py:158-166 | the payload is an object with exactly the fields query, documents, answer and timestamp |
| Cache.DecodeDocs | cache_manager.py:130 | the list decodes if and only if every element does, element by element |
| Cache.DecodeDocuments | cache_manager.py:130 | a list decodes its items; an empty object or empty string iterates to no passages; anything else fails |
| Cache.DecodePayload | cache_manager.py:125-133 | the payload decodes if and only if it is an object with documents and answer fields and the documents decode; the answer is returned as stored |
| Cache.DocsRoundTrip | cache_manager.py:130-158 | serialised passages decode back to the same passages |
| Cache.PayloadRoundTrip | cache_manager.py:125-173 | a payload written by a save reads back as the saved passages and answer |
| Cache.PayloadAt | cache_manager.py:123-136 | a payload is served if and only if its file exists, parses and decodes; every failure is a miss |
| Cache.Lookup | cache_manager.py:103-138 | a hash not in the index misses; an entry more than 604800 seconds old misses; otherwise the result is whatever the payload file yields |
| Cache.Save | cache_manager.py:140-178 | the query's entry is replaced with the new time whatever the writes do; other entries and payloads are unchanged; a failed open leaves the payloads; the index file is written only after a completed payload write |
| Cache.SaveThenLookup | cache_manager.py:113-176 | after a completed save of a query whose hash is not `cache_index`, the lookup of the same query hits if and only if at most seven days have passed, the boundary included, and returns the saved passages and answer |
| Cache.SaveLeavesOtherQueries | cache_manager.py:149-176 | a save changes no lookup of a query with a different hash |
| Cache.FailedSaveServesOldPayload | cache_manager.py:152-178 | when the payload file cannot be opened, the index still gets the new time, so the previous payload is served as fresh |
| Cache.InterruptedSaveMisses | cache_manager.py:171-178 | a payload write that truncated the file and failed makes the query miss |
| Cache.ReopenAfterSave | cache_manager.py:20-59 | after a save whose two writes completed, for a hash other than `cache_index`, reopening the directory gives the same cache and the same lookups |
| Cache.Clear | cache_manager.py:180-197 | afterwards the index is empty, every lookup misses, only files whose removal failed remain, and a reopened cache is empty unless the old index file could be neither removed nor reopened for writing, in which case it is left as it was |
| Cache.ClearTwice | cache_manager.py:180-197 | after two clears with any outcomes the index is empty, only files whose removal failed both times remain, and a reopened cache is empty unless both clears could neither remove nor rewrite the index file, in which case the old index reappears |
| Cache.StatKeyOfDotFreeHash | cache_manager.py:218-220 | a payload file of a dot-free hash, such as an md5 hex digest, is counted under that hash |
| Cache.StatKeyOfDottedHash | cache_manager.py:219 | a payload file whose hash contains a dot is counted under the part of the hash before its first dot |
| Cache.CacheStats | cache_manager.py:199-235 | the entry count is the index size; both times are N/A exactly when the index is empty; otherwise the oldest is the least of now and the index times of indexed hashes that have a payload file, and the newest the greatest of 0 and those index times (the time stored inside a payload file is never read) |
| Cache.VisitKeepsBounds | cache_manager.py:212-223 | one loop turn keeps the running oldest and newest the least and greatest of the start values and the index times of the indexed hashes whose payload files were seen so far |
| Cache.StatsAfterClear | cache_manager.py:180-227 | statistics taken right after a clear report zero entries and N/A for both times |
| Formatting.RagFormatDocs | rag_generator.py:88-107 | the context is empty if and only if there are no passages |
| Formatting.EvalFormatDocs | evaluation.py:86-105 | the context is empty if and only if there are no passages |
| Formatting.RagFormatAppend | rag_generator.py:99-107 | one more passage appends a separating line break and its block, labelled with its position |
| Formatting.EvalFormatAppend | evaluation.py:97-105 | one more passage appends a separating line break and its block, numbered with its 1-based position |
| Formatting.RagContentShown | rag_generator.py:104-107 | every passage's block, and so its text verbatim, occurs in the context |
| Formatting.EvalContentShown | evaluation.py:102-105 | every passage's block, and so its text verbatim, occurs in the context |
| Formatting.EvalBlockNumbersRagBlock | evaluation.py:102 | the evaluator's block is the generator's block with the 1-based position inserted before the colon |
| Formatting.EvalNumberReadsBack | evaluation.py:102 | the header's digits after "--- Documento ", ended by a colon, read back as the position plus one |
| Formatting.SourceLabelCases | rag_generator.py:100 | the header names the source metadata when present and "Documento" with the 1-based position otherwise |
| Formatting.PageInfoShown | rag_generator.py:101-102 | the page shows if and only if the page metadata is present and truthy, and then as " (Pagina <page>)" |
| Formatting.PageZeroHidden | rag_generator.py:101-102 | page 0 is falsy and is formatted like a missing page, while page 1 shows |

## Left out

- Model calls: `QueryTransformer.expand_query` and the LLM call in `generate_multi_queries` are foreign. The model's reply is a parameter.
- The answer chains, evaluation scoring, vector store, PDF loading and splitting, command-line and Streamlit front ends are not part of this model. They are glue over libraries whose code is not shown.
- Retrievers are functions from query to passages. Exceptions raised inside a retriever, and the callback manager, are not modelled.
- File-system and JSON I/O are modelled by their outcomes: a payload file parses or is unreadable, and every write completes, fails to open, or truncates and then fails. Partial writes that leave parseable JSON of another shape are not modelled.
- An index file that parses but is not a map of `{query, timestamp}` entries is not modelled. In the code the effect depends on its shape. A number, `null`, a boolean, or an entry without a numeric `timestamp` makes a later lookup raise outside the `try`. A list or a string makes every lookup miss, and the next `save_to_cache` raises when it assigns into it. An entry that lacks only `query` behaves like a well-formed one, since nothing reads `query`.
- Files that are not `<hash>.json` payloads are not modelled. That includes `.json` files placed in the cache directory by someone else, which `clear_cache` removes. `get_cache_stats` adds every `.json` file to its byte total, but reads an index time for a file only when the part of its name before the first dot is an indexed hash.
- md5 is an arbitrary function from query to name. Collisions are not excluded, and the lemmas that rely on distinct hashes say so in their preconditions.
- Ensemble.Fuse: scores are exact sums of real weights, whereas the code adds Python floats (advanced_retrieval.py:179). Float rounding can make near-equal sums differ or coincide, so ties can break differently: with weights 0.3, 0.1 and 0.2, the float sum 0.1 + 0.2 exceeds 0.3, but the real sum equals it.
- Ensemble.GetRelevantDocuments: inherits the exact-sum scoring of `Ensemble.Fuse`, so float rounding of the summed weights is not modelled.
- Ensemble.AccumulateTallies: the tallied score is the exact real sum of the weights, not the float sum the code accumulates.
- Ensemble.RankFuses: the order is by exact real totals, so totals that float rounding would reorder or tie are not modelled.
- Cache.SaveThenLookup: assumes the query's hash is not `cache_index`. In the code, payloads and the index share one directory, so a payload named `cache_index.json` would be overwritten by the index. md5 hex digests never have that name. The model keeps payloads and the index file apart, and the statistics skip that name as the code does.
- Cache.ReopenAfterSave: assumes the query's hash is not `cache_index`, for the same reason.
- Timestamps are exact reals. Float rounding of `time.time()` and the subtraction is not modelled.
- `save_to_cache` reads the clock twice. The model uses one `now` for both reads, and the payload's timestamp is never read back.
- `total_size_bytes` and `total_size_mb` are not modelled, because byte sizes of the JSON encoding are out of scope. Neither is the `strftime` rendering of the two times; the model returns the times themselves.
- Metadata values are strings, integers, booleans or null. Floats and nested lists or objects in metadata are not modelled, and `Json.DeserializeDoc` rejects them, whereas the code would accept them.
- `print` calls on errors and on clear are not modelled.
- `Cache.Lookup` returns `(None, None)` as `None`. Its result carries the answer as the stored JSON value, because the code returns whatever `"answer"` holds.
- An expired or failed lookup leaves the cache as it was by construction: `Cache.Lookup` returns no new state. Statistics likewise read the cache and return no new state.
- Concurrency: the code has no locking, and interleaved saves are not modelled.
- Quirks the model keeps as the code has them:
  - when the index is non-empty but no counted payload file exists, the oldest time is `now` and the newest is the epoch (0);
  - a failed payload save still refreshes the index time (`Cache.FailedSaveServesOldPayload`);
  - page 0 is hidden by truthiness (`Formatting.PageZeroHidden`).

=== FILE: cache.dfy ===
/** `QueryCache`: answers and their passages stored per query, under the
    hash of the query. An in-memory index maps each hash to the query and
    the time it was saved; each hash has a payload file `<hash>.json` and the
    index is mirrored in `cache_index.json`. The file system, the clock and
    the hash function are parameters: the directory is a value, the time is
    `now` in seconds, the hash is any function from query to name, and every
    write or removal comes with its outcome. */
module Cache {
  import opened Wrappers
  import opened Seqs
  import opened Text
  import opened Documents
  import opened Json

  /** `7 * 24 * 60 * 60` seconds: entries older than this are stale. */
  const MaxAge: real := 604800.0

  /** The name of the index file without its `.json` suffix. */
  const IndexName: string := "cache_index"

  /** One index entry: `{"query": ..., "timestamp": ...}`. */
  datatype IndexEntry = IndexEntry(query: string, timestamp: real)

  /** A payload file as `json.load` sees it: a JSON value, or a file it
      rejects (truncated by an interrupted write, or corrupt). */
  datatype FileState = Stored(content: Json) | Garbled

  /** The index file: the index as last written, or a file `json.load` rejects. */
  datatype IndexFile = IndexStored(index: map<string, IndexEntry>) | IndexGarbled

  /** The cache directory: one payload file per hash, and the index file if present. */
  datatype Disk = Disk(payloads: map<string, FileState>, indexFile: Option<IndexFile>)

  /** A `QueryCache` object: its in-memory index and its directory. */
  datatype QueryCache = QueryCache(index: map<string, IndexEntry>, disk: Disk)

  /** How `open(path, "w")` followed by `json.dump` ended: it completed, the
      open failed and the file was not touched, or the open truncated the
      file and the dump then failed. Every such failure is caught. */
  datatype WriteOutcome = WriteOk | OpenFailed | WriteInterrupted

  /** The `(documents, answer)` pair of a hit. The answer is whatever the
      payload holds under `"answer"`. */
  datatype Cached = Cached(docs: seq<Doc>, answer: Json)

  /** `_load_cache_index`: the stored index, or `{}` when the file is
      missing or cannot be read. */
  function LoadIndex(disk: Disk): map<string, IndexEntry> {
    match disk.indexFile
    case Some(IndexStored(index)) => index
    case _ => map[]
  }

  /** `QueryCache.__init__` over an existing directory. */
  function Open(disk: Disk): (c: QueryCache)
    ensures c.disk == disk
    ensures disk.indexFile.Some? && disk.indexFile.value.IndexStored? ==> c.index == disk.indexFile.value.index
    ensures disk.indexFile == None || disk.indexFile == Some(IndexGarbled) ==> c.index == map[]
  {
    QueryCache(LoadIndex(disk), disk)
  }

  /** `_save_cache_index`: the index file after writing `index` to it. */
  function WriteIndex(file: Option<IndexFile>, index: map<string, IndexEntry>, outcome: WriteOutcome): (r: Option<IndexFile>)
    ensures outcome == WriteOk ==> LoadIndex(Disk(map[], r)) == index
    ensures outcome == OpenFailed ==> r == file
    ensures outcome == WriteInterrupted ==> LoadIndex(Disk(map[], r)) == map[]
  {
    match outcome
    case WriteOk => Some(IndexStored(index))
    case OpenFailed => file
    case WriteInterrupted => Some(IndexGarbled)
  }

  function SerializeDocs(docs: seq<Doc>): (js: seq<Json>)
    ensures |js| == |docs| && forall i :: 0 <= i < |docs| ==> js[i] == SerializeDoc(docs[i])
  {
    seq(|docs|, i requires 0 <= i < |docs| => SerializeDoc(docs[i]))
  }

  /** The payload `save_to_cache` writes. */
  function EncodePayload(query: string, docs: seq<Doc>, answer: string, now: real): (j: Json)
    ensures j.JObject? && j.fields.Keys == {"query", "documents", "answer", "timestamp"}
  {
    JObject(map[
      "query" := JStr(query),
      "documents" := JArray(SerializeDocs(docs)),
      "answer" := JStr(answer),
      "timestamp" := JNum(now)])
  }

  /** `[self._deserialize_document(d) for d in items]`: every item must
      decode, and the first failure ends the comprehension. */
  function DecodeDocs(items: seq<Json>): (r: Result<seq<Doc>, DecodeError>)
    ensures r.Ok? <==> forall i :: 0 <= i < |items| ==> DeserializeDoc(items[i]).Ok?
    ensures r.Ok? ==> |r.value| == |items|
    ensures r.Ok? ==> forall i :: 0 <= i < |items| ==> DeserializeDoc(items[i]) == Ok(r.value[i])
  {
    if |items| == 0 then Ok([])
    else
      match DeserializeDoc(items[0])
      case Err(e) => Err(e)
      case Ok(d) =>
        match DecodeDocs(items[1..])
        case Err(e) =>
          assert forall i :: 0 < i < |items| ==> items[i] == items[1..][i - 1];
          Err(e)
        case Ok(ds) =>
          assert forall i :: 0 < i < |items| ==> items[i] == items[1..][i - 1];
          Ok([d] + ds)
  }

  /** Iterating `cache_data["documents"]`: a list yields its items; a dict
      yields its keys and a string its characters, which fail to decode
      unless there are none; anything else is not iterable. */
  function DecodeDocuments(j: Json): (r: Result<seq<Doc>, DecodeError>)
    ensures j.JArray? ==> r == DecodeDocs(j.items)
    ensures (j.JObject? && |j.fields| == 0) || j == JStr("") ==> r == Ok([])
    ensures r.Ok? ==> j.JArray? || (j.JObject? && |j.fields| == 0) || j == JStr("")
  {
    match j
    case JArray(items) => DecodeDocs(items)
    case JObject(fields) => if |fields| == 0 then Ok([]) else Err(WrongType("documents"))
    case JStr(s) => if |s| == 0 then Ok([]) else Err(WrongType("documents"))
    case _ => Err(WrongType("documents"))
  }

  /** The `try` block of `get_from_cache` once the file is parsed:
      `cache_data["documents"]`, then `cache_data["answer"]`. */
  function DecodePayload(j: Json): (r: Result<Cached, DecodeError>)
    ensures r.Ok? <==> j.JObject? && "documents" in j.fields && "answer" in j.fields &&
                       DecodeDocuments(j.fields["documents"]).Ok?
    ensures r.Ok? ==> r.value == Cached(DecodeDocuments(j.fields["documents"]).value, j.fields["answer"])
  {
    if !j.JObject? then Err(NotAnObject)
    else if "documents" !in j.fields then Err(MissingField("documents"))
    else
      match DecodeDocuments(j.fields["documents"])
      case Err(e) => Err(e)
      case Ok(docs) =>
        if "answer" !in j.fields then Err(MissingField("answer"))
        else Ok(Cached(docs, j.fields["answer"]))
  }

  /** Every serialised passage decodes back to itself. */
  lemma DocsRoundTrip(docs: seq<Doc>)
    ensures DecodeDocs(SerializeDocs(docs)) == Ok(docs)
  {
    var js := SerializeDocs(docs);
    forall i | 0 <= i < |docs|
      ensures DeserializeDoc(js[i]) == Ok(docs[i])
    {
      DocRoundTrip(docs[i]);
    }
    assert DecodeDocs(js).Ok?;
    var ds := DecodeDocs(js).value;
    assert |ds| == |docs|;
    assert forall i :: 0 <= i < |docs| ==> Ok(ds[i]) == DeserializeDoc(js[i]) == Ok(docs[i]);
    assert ds == docs;
  }

  /** A payload written by `save_to_cache` reads back as the passages and
      the answer that were saved. */
  lemma PayloadRoundTrip(query: string, docs: seq<Doc>, answer: string, now: real)
    ensures DecodePayload(EncodePayload(query, docs, answer, now)) == Ok(Cached(docs, JStr(answer)))
  {
    DocsRoundTrip(docs);
  }

  /** The payload file of `h`, as far as it decodes. */
  function PayloadAt(disk: Disk, h: string): (r: Option<Cached>)
    ensures r.Some? <==> h in disk.payloads && disk.payloads[h].Stored? &&
                         DecodePayload(disk.payloads[h].content).Ok?
    ensures r.Some? ==> r.value == DecodePayload(disk.payloads[h].content).value
  {
    if h !in disk.payloads then None
    else
      match disk.payloads[h]
      case Garbled => None
      case Stored(j) =>
        match DecodePayload(j)
        case Ok(hit) => Some(hit)
        case Err(_) => None
  }

  /** The age test of `get_from_cache`: strictly more than seven days is stale. */
  predicate Fresh(e: IndexEntry, now: real) {
    now - e.timestamp <= MaxAge
  }

  /** `get_from_cache`: a hit needs an index entry for the query's hash that
      is at most seven days old and a payload that decodes; every other
      case is the miss `(None, None)`, and nothing changes either way. */
  function Lookup(c: QueryCache, hash: string -> string, query: string, now: real): (r: Option<Cached>)
    ensures hash(query) !in c.index ==> r.None?
    ensures hash(query) in c.index && now - c.index[hash(query)].timestamp > MaxAge ==> r.None?
    ensures hash(query) in c.index && Fresh(c.index[hash(query)], now) ==> r == PayloadAt(c.disk, hash(query))
  {
    var h := hash(query);
    if h !in c.index then None
    else if now - c.index[h].timestamp > MaxAge then None
    else PayloadAt(c.disk, h)
  }

  /** `save_to_cache`: the index entry of the query's hash is replaced
      whatever happens next; the payload is written with the given outcome;
      the index file is written only when the payload write completed. */
  function Save(c: QueryCache, hash: string -> string, query: string, docs: seq<Doc>, answer: string, now: real,
                payloadWrite: WriteOutcome, indexWrite: WriteOutcome): (r: QueryCache)
    ensures r.index.Keys == c.index.Keys + {hash(query)}
    ensures r.index[hash(query)] == IndexEntry(query, now)
    ensures forall h :: h in c.index && h != hash(query) ==> r.index[h] == c.index[h]
    ensures forall h :: h != hash(query) ==>
              (h in r.disk.payloads <==> h in c.disk.payloads) &&
              (h in c.disk.payloads ==> r.disk.payloads[h] == c.disk.payloads[h])
    ensures payloadWrite == OpenFailed ==> r.disk.payloads == c.disk.payloads
    ensures payloadWrite != WriteOk ==> r.disk.indexFile == c.disk.indexFile
  {
    var h := hash(query);
    var index := c.index[h := IndexEntry(query, now)];
    var payloads :=
      match payloadWrite
      case WriteOk => c.disk.payloads[h := Stored(EncodePayload(query, docs, answer, now))]
      case OpenFailed => c.disk.payloads
      case WriteInterrupted => c.disk.payloads[h := Garbled];
    var indexFile := if payloadWrite == WriteOk then WriteIndex(c.disk.indexFile, index, indexWrite) else c.disk.indexFile;
    QueryCache(index, Disk(payloads, indexFile))
  }

  /** A completed save is a hit for the same query for exactly seven days
      from the save, boundary included, with the saved passages and answer.
      The query's hash must not be the index file's own name, whose file the
      index write would overwrite. */
  lemma SaveThenLookup(c: QueryCache, hash: string -> string, query: string, docs: seq<Doc>, answer: string,
                       saved: real, indexWrite: WriteOutcome, now: real)
    requires hash(query) != IndexName
    ensures var r := Lookup(Save(c, hash, query, docs, answer, saved, WriteOk, indexWrite), hash, query, now);
            (r.Some? <==> now - saved <= MaxAge) &&
            (r.Some? ==> r.value == Cached(docs, JStr(answer)))
  {
    PayloadRoundTrip(query, docs, answer, saved);
  }

  /** Saving one query leaves the lookup of every query with another hash
      as it was. */
  lemma SaveLeavesOtherQueries(c: QueryCache, hash: string -> string, query: string, docs: seq<Doc>, answer: string,
                               saved: real, payloadWrite: WriteOutcome, indexWrite: WriteOutcome,
                               other: string, now: real)
    requires hash(other) != hash(query)
    ensures Lookup(Save(c, hash, query, docs, answer, saved, payloadWrite, indexWrite), hash, other, now)
         == Lookup(c, hash, other, now)
  {
    var r := Save(c, hash, query, docs, answer, saved, payloadWrite, indexWrite);
    assert PayloadAt(r.disk, hash(other)) == PayloadAt(c.disk, hash(other));
  }

  /** When the payload file cannot be opened, the index still records the
      new time, so whatever payload the hash had before is served as fresh
      for another seven days. */
  lemma FailedSaveServesOldPayload(c: QueryCache, hash: string -> string, query: string, docs: seq<Doc>, answer: string,
                                   saved: real, indexWrite: WriteOutcome, now: real)
    requires now - saved <= MaxAge
    ensures Lookup(Save(c, hash, query, docs, answer, saved, OpenFailed, indexWrite), hash, query, now)
         == PayloadAt(c.disk, hash(query))
  {
  }

  /** A payload write that truncated the file and then failed makes the
      query a miss until it is saved again. */
  lemma InterruptedSaveMisses(c: QueryCache, hash: string -> string, query: string, docs: seq<Doc>, answer: string,
                              saved: real, indexWrite: WriteOutcome, now: real)
    ensures Lookup(Save(c, hash, query, docs, answer, saved, WriteInterrupted, indexWrite), hash, query, now).None?
  {
  }

  /** After a save whose two writes both completed, a cache opened on the
      same directory has the same index, and answers the query the same way
      (for a hash other than the index file's name). */
  lemma ReopenAfterSave(c: QueryCache, hash: string -> string, query: string, docs: seq<Doc>, answer: string,
                        saved: real, now: real)
    requires hash(query) != IndexName
    ensures var r := Save(c, hash, query, docs, answer, saved, WriteOk, WriteOk);
            Open(r.disk) == r &&
            Lookup(Open(r.disk), hash, query, now) == Lookup(r, hash, query, now)
  {
  }

  /** `clear_cache`: every `.json` file in the directory is removed except
      those whose removal fails (`removeFailed` for payloads,
      `indexRemoveFailed` for the index file), then `{}` is written as the
      index with the given outcome. */
  function Clear(c: QueryCache, removeFailed: set<string>, indexRemoveFailed: bool, indexWrite: WriteOutcome): (r: QueryCache)
    ensures r.index == map[]
    ensures r.disk.payloads.Keys == c.disk.payloads.Keys * removeFailed
    ensures forall h :: h in r.disk.payloads ==> r.disk.payloads[h] == c.disk.payloads[h]
    ensures forall hash, query, now :: Lookup(r, hash, query, now).None?
    ensures !(indexRemoveFailed && indexWrite == OpenFailed) ==> Open(r.disk).index == map[]
    ensures indexRemoveFailed && indexWrite == OpenFailed ==> r.disk.indexFile == c.disk.indexFile
  {
    var payloads := map h | h in c.disk.payloads && h in removeFailed :: c.disk.payloads[h];
    var afterRemoval := if indexRemoveFailed then c.disk.indexFile else None;
    QueryCache(map[], Disk(payloads, WriteIndex(afterRemoval, map[], indexWrite)))
  }

  /** Two clears, whatever their outcomes: the index is empty, only files
      whose removal failed both times remain, and a reopened cache is empty
      unless the old index file could be neither removed nor rewritten by
      either clear. */
  lemma ClearTwice(c: QueryCache, removeFailed1: set<string>, indexRemoveFailed1: bool, indexWrite1: WriteOutcome,
                   removeFailed2: set<string>, indexRemoveFailed2: bool, indexWrite2: WriteOutcome)
    ensures var r := Clear(Clear(c, removeFailed1, indexRemoveFailed1, indexWrite1),
                           removeFailed2, indexRemoveFailed2, indexWrite2);
            && r.index == map[]
            && r.disk.payloads.Keys == c.disk.payloads.Keys * removeFailed1 * removeFailed2
            && (Open(r.disk).index != map[] ==>
                  indexRemoveFailed1 && indexWrite1 == OpenFailed && indexRemoveFailed2 && indexWrite2 == OpenFailed &&
                  Open(r.disk).index == LoadIndex(c.disk))
  {
  }

  /** The name a payload file is counted under by `get_cache_stats`:
      `filename.split(".")[0]` of `<hash>.json`. */
  function StatKey(h: string): string {
    Split(h + ".json", '.')[0]
  }

  /** For a hash without a dot, such as an md5 hex digest, that is the hash. */
  lemma StatKeyOfDotFreeHash(h: string)
    requires '.' !in h
    ensures StatKey(h) == h
  {
    var parts := [h, "json"];
    assert Join(parts, ".") == h + ".json" by {
      assert parts[1..] == ["json"];
    }
    SplitUnique(h + ".json", '.', parts);
  }

  /** A hash with a dot is counted under the part before its first dot. */
  lemma StatKeyOfDottedHash(h: string)
    requires '.' in h
    ensures StatKey(h) == h[..FirstIndex(h, '.')]
  {
    var name := h + ".json";
    SplitFirstPiece(name, '.');
    assert name[..|h|] == h;
    FirstIndexPrefix(name, |h|, '.');
    assert name[..FirstIndex(h, '.')] == h[..FirstIndex(h, '.')];
  }

  /** Payload files `get_cache_stats` reads a time for: not the index file
      itself (`filename != "cache_index.json"`, that is `h != IndexName`),
      and the part of the name before the first dot is an indexed hash. */
  predicate Counted(c: QueryCache, h: string) {
    h in c.disk.payloads && h != IndexName && StatKey(h) in c.index
  }

  /** The index times of the hashes the counted payload files among `hs`
      are counted under (not the times stored inside those files). */
  function StampsIn(c: QueryCache, hs: set<string>): set<real> {
    set h | h in hs && Counted(c, h) :: c.index[StatKey(h)].timestamp
  }

  /** A time shown by the statistics, or `"N/A"`. */
  datatype Stamp = At(t: real) | NotAvailable

  datatype Stats = Stats(totalEntries: nat, oldest: Stamp, newest: Stamp)

  /** `get_cache_stats`: the number of index entries, and the oldest and
      newest index times of the indexed hashes that have a payload file,
      starting from `now` and from 0 (the epoch); both are `"N/A"` exactly
      when the index is empty. The statistics read the cache and change
      nothing. */
  method CacheStats(c: QueryCache, now: real) returns (s: Stats)
    ensures s.totalEntries == |c.index|
    ensures s.oldest == NotAvailable <==> |c.index| == 0
    ensures s.newest == NotAvailable <==> |c.index| == 0
    ensures s.oldest.At? ==> LeastOf({now} + StampsIn(c, c.disk.payloads.Keys), s.oldest.t)
    ensures s.newest.At? ==> GreatestOf({0.0} + StampsIn(c, c.disk.payloads.Keys), s.newest.t)
  {
    var oldest := now;
    var newest := 0.0;
    var todo := c.disk.payloads.Keys;
    ghost var done: set<string> := {};
    while todo != {}
      invariant done + todo == c.disk.payloads.Keys
      invariant LeastOf({now} + StampsIn(c, done), oldest)
      invariant GreatestOf({0.0} + StampsIn(c, done), newest)
      decreases |todo|
    {
      var h :| h in todo;
      VisitKeepsBounds(c, done, h, now, oldest, newest);
      var next := Visit(c, h, oldest, newest);
      oldest, newest := next.0, next.1;
      todo := todo - {h};
      done := done + {h};
    }
    var total := |c.index|;
    if total > 0 {
      s := Stats(total, At(oldest), At(newest));
    } else {
      s := Stats(total, NotAvailable, NotAvailable);
    }
  }

  /** After a clear, whatever its removals and its index write did, the
      statistics report no entries and "N/A" for both times. */
  method StatsAfterClear(c: QueryCache, removeFailed: set<string>, indexRemoveFailed: bool,
                         indexWrite: WriteOutcome, now: real) returns (s: Stats)
    ensures s == Stats(0, NotAvailable, NotAvailable)
  {
    var cleared := Clear(c, removeFailed, indexRemoveFailed, indexWrite);
    s := CacheStats(cleared, now);
  }

  /** One turn of the statistics loop for the payload file of `h`: the
      index file (`h == IndexName`) is skipped, and a file counted under an
      indexed hash moves
      the oldest and newest times to `min` and `max` with that hash's index
      time. */
  function Visit(c: QueryCache, h: string, oldest: real, newest: real): (real, real) {
    if h != IndexName && StatKey(h) in c.index then
      var t := c.index[StatKey(h)].timestamp;
      (if t < oldest then t else oldest, if t > newest then t else newest)
    else (oldest, newest)
  }

  /** A turn of the loop keeps `oldest` and `newest` the least and greatest
      of the start values and the times seen so far. */
  lemma VisitKeepsBounds(c: QueryCache, done: set<string>, h: string, now: real, oldest: real, newest: real)
    requires h in c.disk.payloads
    requires LeastOf({now} + StampsIn(c, done), oldest)
    requires GreatestOf({0.0} + StampsIn(c, done), newest)
    ensures LeastOf({now} + StampsIn(c, done + {h}), Visit(c, h, oldest, newest).0)
    ensures GreatestOf({0.0} + StampsIn(c, done + {h}), Visit(c, h, oldest, newest).1)
  {
    StampsInAdd(c, done, h);
    if Counted(c, h) {
      var t := c.index[StatKey(h)].timestamp;
      VisitLeast({now}, StampsIn(c, done), StampsIn(c, done + {h}), t, oldest);
      VisitGreatest({0.0}, StampsIn(c, done), StampsIn(c, done + {h}), t, newest);
    }
  }

  lemma VisitLeast(start: set<real>, xs: set<real>, ys: set<real>, t: real, m: real)
    requires ys == xs + {t}
    requires LeastOf(start + xs, m)
    ensures LeastOf(start + ys, if t < m then t else m)
  {
    LeastStep(start + xs, m, t);
    assert start + ys == start + xs + {t};
  }

  lemma VisitGreatest(start: set<real>, xs: set<real>, ys: set<real>, t: real, m: real)
    requires ys == xs + {t}
    requires GreatestOf(start + xs, m)
    ensures GreatestOf(start + ys, if t > m then t else m)
  {
    GreatestStep(start + xs, m, t);
    assert start + ys == start + xs + {t};
  }

  /** `m` is the least element of `xs`. */
  predicate LeastOf(xs: set<real>, m: real) {
    m in xs && forall x :: x in xs ==> m <= x
  }

  /** `m` is the greatest element of `xs`. */
  predicate GreatestOf(xs: set<real>, m: real) {
    m in xs && forall x :: x in xs ==> x <= m
  }

  /** `min(m, t)` is the least of one more element. */
  lemma LeastStep(xs: set<real>, m: real, t: real)
    requires LeastOf(xs, m)
    ensures LeastOf(xs + {t}, if t < m then t else m)
  {
  }

  /** `max(m, t)` is the greatest of one more element. */
  lemma GreatestStep(xs: set<real>, m: real, t: real)
    requires GreatestOf(xs, m)
    ensures GreatestOf(xs + {t}, if t > m then t else m)
  {
  }

  /** One more file adds its time when it is counted, and nothing otherwise. */
  lemma StampsInAdd(c: QueryCache, done: set<string>, h: string)
    requires h in c.disk.payloads
    ensures Counted(c, h) ==> StampsIn(c, done + {h}) == StampsIn(c, done) + {c.index[StatKey(h)].timestamp}
    ensures !Counted(c, h) ==> StampsIn(c, done + {h}) == StampsIn(c, done)
  {
  }
}

=== FILE: documents.dfy ===
/** Retrieved passages (LangChain `Document`s) and the string key the
    retrievers use to tell two passages apart. */
module Documents {
  import opened Text

  /** A metadata value. PDF loading produces a string `source` and an integer
      `page`; booleans and `None` are the other JSON scalars. */
  datatype Scalar = Str(s: string) | Int(i: int) | Bool(b: bool) | Null

  /** A passage: its text and its metadata mapping. */
  datatype Doc = Doc(pageContent: string, metadata: map<string, Scalar>)

  /** Python truthiness of a scalar: empty string, zero, `False` and `None` are false. */
  predicate Truthy(v: Scalar) {
    match v
    case Str(s) => s != ""
    case Int(i) => i != 0
    case Bool(b) => b
    case Null => false
  }

  /** `str(v)`, which is what an f-string substitutes. */
  function ScalarText(v: Scalar): string {
    match v
    case Str(s) => s
    case Int(i) => IntToDecimal(i)
    case Bool(b) => if b then "True" else "False"
    case Null => "None"
  }

  /** `metadata.get(name, default)`. */
  function MetaGet(d: Doc, name: string, default: Scalar): Scalar {
    if name in d.metadata then d.metadata[name] else default
  }

  /** The deduplication key `f"{page_content}_{source}_{page}"`, with a missing
      source or page written as the empty string. The content is always a
      prefix of the key, followed by at least the two underscores. */
  function CompositeKey(d: Doc): (k: string)
    ensures |k| >= |d.pageContent| + 2 && k[..|d.pageContent|] == d.pageContent
  {
    d.pageContent + "_" + ScalarText(MetaGet(d, "source", Str(""))) + "_"
      + ScalarText(MetaGet(d, "page", Str("")))
  }

  /** Passages that agree on content and on the texts of source and page are
      the same passage as far as deduplication is concerned, whatever else
      their metadata holds. */
  lemma SameFieldsSameKey(d: Doc, e: Doc)
    requires d.pageContent == e.pageContent
    requires ScalarText(MetaGet(d, "source", Str(""))) == ScalarText(MetaGet(e, "source", Str("")))
    requires ScalarText(MetaGet(d, "page", Str(""))) == ScalarText(MetaGet(e, "page", Str("")))
    ensures CompositeKey(d) == CompositeKey(e)
  {
  }

  /** The joined key conflates distinct passages: an underscore moved between
      content and source, an integer page and the same digits as a string,
      and a missing source against an empty one all give equal keys. */
  lemma KeyConflatesDistinctPassages()
    ensures var d := Doc("a_b", map["source" := Str("c")]);
            var e := Doc("a", map["source" := Str("b_c")]);
            d != e && CompositeKey(d) == CompositeKey(e)
    ensures var d := Doc("x", map["page" := Int(3)]);
            var e := Doc("x", map["page" := Str("3")]);
            d != e && CompositeKey(d) == CompositeKey(e)
    ensures var d := Doc("x", map[]);
            var e := Doc("x", map["source" := Str("")]);
            d != e && CompositeKey(d) == CompositeKey(e)
  {
    var d := Doc("x", map["page" := Int(3)]);
    assert DigitChar(3) == '3';
    assert NatToDecimal(3) == "3";
    assert ScalarText(Int(3)) == "3";
    var e := Doc("x", map["page" := Str("3")]);
    assert d.metadata["page"] != e.metadata["page"];
    assert MetaGet(d, "page", Str("")) == Int(3);
    assert MetaGet(e, "page", Str("")) == Str("3");
    assert MetaGet(d, "source", Str("")) == Str("") == MetaGet(e, "source", Str(""));
    assert Doc("x", map[]) != Doc("x", map["source" := Str("")]) by {
      assert "source" in Doc("x", map["source" := Str("")]).metadata;
    }
  }

  /** The keys of a list of passages, position by position. */
  function Keys(docs: seq<Doc>): (ks: seq<string>)
    ensures |ks| == |docs| && forall i :: 0 <= i < |docs| ==> ks[i] == CompositeKey(docs[i])
  {
    seq(|docs|, i requires 0 <= i < |docs| => CompositeKey(docs[i]))
  }
}

=== FILE: ensemble.dfy ===
/** `EnsembleRetriever`: a weighted union of several retrievers. Every
    passage a retriever returns adds that retriever's weight to the score of
    the passage's key; the first passage seen under a key is the one kept,
    and the result is ordered by score, highest first, with equal scores in
    first-seen order (Python's `sorted` is stable and dicts keep insertion
    order). Retrievers are modelled as functions from query to passages. */
module Ensemble {
  import opened Wrappers
  import opened Seqs
  import opened Documents

  /** A retriever: for a query, its passages in rank order. */
  type Retriever = string -> seq<Doc>

  datatype ConfigError = WeightCountMismatch(weights: nat, retrievers: nat)

  datatype EnsembleRetriever = EnsembleRetriever(retrievers: seq<Retriever>, weights: seq<real>)
  {
    /** Construction guarantees one weight per retriever. */
    predicate Valid() {
      |weights| == |retrievers|
    }
  }

  /** `EnsembleRetriever.__init__`: without weights every retriever weighs
      1.0; a weight list of the wrong length is rejected before any retrieval. */
  function NewEnsemble(retrievers: seq<Retriever>, weights: Option<seq<real>>): (r: Result<EnsembleRetriever, ConfigError>)
    ensures r.Ok? <==> weights.None? || |weights.value| == |retrievers|
    ensures r.Ok? ==> r.value.Valid() && r.value.retrievers == retrievers
    ensures r.Ok? && weights.None? ==> forall i :: 0 <= i < |r.value.weights| ==> r.value.weights[i] == 1.0
    ensures r.Ok? && weights.Some? ==> r.value.weights == weights.value
    ensures r.Err? ==> r.error == WeightCountMismatch(|weights.value|, |retrievers|)
  {
    match weights
    case None => Ok(EnsembleRetriever(retrievers, seq(|retrievers|, _ => 1.0)))
    case Some(ws) =>
      if |ws| != |retrievers| then Err(WeightCountMismatch(|ws|, |retrievers|))
      else Ok(EnsembleRetriever(retrievers, ws))
  }

  /** One passage as returned by one retriever, with its key and that
      retriever's weight. */
  datatype Hit = Hit(key: string, doc: Doc, weight: real)

  /** The number of passages returned by the first `i` retrievers: where the
      `i`-th retriever's passages start in the visiting order. */
  function Offset(results: seq<seq<Doc>>, i: nat): nat
    requires i <= |results|
  {
    if i == 0 then 0 else Offset(results, i - 1) + |results[i - 1]|
  }

  /** Passages of later retrievers are visited after every passage of
      earlier ones. */
  lemma {:induction false} OffsetMonotone(results: seq<seq<Doc>>, i: nat, i': nat)
    requires i < i' <= |results|
    ensures Offset(results, i) + |results[i]| <= Offset(results, i')
    decreases i' - i
  {
    if i + 1 < i' {
      OffsetMonotone(results, i + 1, i');
    }
  }

  /** The hits of one retriever's results. */
  function Tag(docs: seq<Doc>, w: real): (hits: seq<Hit>)
    ensures |hits| == |docs|
    ensures forall j :: 0 <= j < |docs| ==> hits[j].doc == docs[j] && hits[j].weight == w
    ensures forall j :: 0 <= j < |docs| ==> hits[j].key == CompositeKey(docs[j])
  {
    seq(|docs|, j requires 0 <= j < |docs| => Hit(CompositeKey(docs[j]), docs[j], w))
  }

  /** A hit's key is the key of its passage. */
  predicate KeyedRight(hits: seq<Hit>) {
    forall i :: 0 <= i < |hits| ==> hits[i].key == CompositeKey(hits[i].doc)
  }

  /** The hits of the first `n` retrievers in the order the nested loops visit
      them: retriever by retriever, and by rank within a retriever. */
  function Occurrences(results: seq<seq<Doc>>, weights: seq<real>, n: nat): (hits: seq<Hit>)
    requires |results| == |weights| && n <= |results|
    ensures |hits| == Offset(results, n)
  {
    if n == 0 then []
    else Occurrences(results, weights, n - 1) + Tag(results[n - 1], weights[n - 1])
  }

  /** Every visited hit carries the key of its passage. */
  lemma {:induction false} OccurrencesKeyed(results: seq<seq<Doc>>, weights: seq<real>, n: nat)
    requires |results| == |weights| && n <= |results|
    ensures KeyedRight(Occurrences(results, weights, n))
  {
    if n > 0 {
      OccurrencesKeyed(results, weights, n - 1);
      var prev := Occurrences(results, weights, n - 1);
      var last := Tag(results[n - 1], weights[n - 1]);
      assert Occurrences(results, weights, n) == prev + last;
    }
  }

  /** The passage at rank `j` of retriever `i` is visited at position
      `Offset(results, i) + j`, carrying retriever `i`'s weight. */
  lemma {:induction false} OccurrenceAt(results: seq<seq<Doc>>, weights: seq<real>, n: nat, i: nat, j: nat)
    requires |results| == |weights| && n <= |results|
    requires i < n && j < |results[i]|
    ensures Offset(results, i) + j < Offset(results, n)
    ensures Occurrences(results, weights, n)[Offset(results, i) + j].doc == results[i][j]
    ensures Occurrences(results, weights, n)[Offset(results, i) + j].weight == weights[i]
  {
    var prev := Occurrences(results, weights, n - 1);
    var last := Tag(results[n - 1], weights[n - 1]);
    var all := Occurrences(results, weights, n);
    assert all == prev + last;
    if i < n - 1 {
      OccurrenceAt(results, weights, n - 1, i, j);
      OffsetMonotone(results, i, n - 1);
      var at := Offset(results, i) + j;
      assert at < |prev|;
      assert all[at] == prev[at];
    } else {
      assert Offset(results, n) == |prev| + |last|;
      assert all[|prev| + j] == last[j];
    }
  }

  /** Every visited hit is the passage at some rank of some retriever. */
  lemma {:induction false} OccurrenceOrigin(results: seq<seq<Doc>>, weights: seq<real>, n: nat, p: nat)
      returns (i: nat, j: nat)
    requires |results| == |weights| && n <= |results|
    requires p < Offset(results, n)
    ensures i < n && j < |results[i]|
    ensures Occurrences(results, weights, n)[p].doc == results[i][j]
  {
    var prev := Occurrences(results, weights, n - 1);
    var last := Tag(results[n - 1], weights[n - 1]);
    var all := Occurrences(results, weights, n);
    assert all == prev + last;
    if p < |prev| {
      i, j := OccurrenceOrigin(results, weights, n - 1, p);
      assert all[p] == prev[p];
    } else {
      i, j := n - 1, p - |prev|;
      assert all[p] == last[j];
    }
  }

  function HitKeys(hits: seq<Hit>): (ks: seq<string>)
    ensures |ks| == |hits| && forall i :: 0 <= i < |hits| ==> ks[i] == hits[i].key
  {
    seq(|hits|, i requires 0 <= i < |hits| => hits[i].key)
  }

  /** The score of `key`: the sum of the weights of all hits under that key,
      one term per hit, so a retriever returning a key twice counts twice. */
  function Score(hits: seq<Hit>, key: string): real {
    if |hits| == 0 then 0.0
    else
      var h := hits[|hits| - 1];
      Score(hits[..|hits| - 1], key) + (if h.key == key then h.weight else 0.0)
  }

  /** A key that no hit has scores zero. */
  lemma {:induction false} ScoreOfAbsentKey(hits: seq<Hit>, key: string)
    requires key !in HitKeys(hits)
    ensures Score(hits, key) == 0.0
  {
    if |hits| > 0 {
      assert HitKeys(hits[..|hits| - 1]) == HitKeys(hits)[..|hits| - 1];
      ScoreOfAbsentKey(hits[..|hits| - 1], key);
    }
  }

  /** An entry of the accumulator `doc_dict`: a key, the first passage seen
      under it, its running score, and the position of that first sighting. */
  datatype Entry = Entry(key: string, doc: Doc, score: real, first: nat)

  function EntryKeys(es: seq<Entry>): (ks: seq<string>)
    ensures |ks| == |es| && forall i :: 0 <= i < |es| ==> ks[i] == es[i].key
  {
    seq(|es|, i requires 0 <= i < |es| => es[i].key)
  }

  /** One turn of the accumulation loop, for the hit at position `pos`: a
      hit under a known key adds its weight to that entry; a hit under a new
      key appends a fresh entry. */
  function AddHit(prev: seq<Entry>, h: Hit, pos: nat): seq<Entry> {
    var p := FirstIndex(EntryKeys(prev), h.key);
    if p < |prev| then Rescore(prev, p, h.weight)
    else prev + [Entry(h.key, h.doc, h.weight, pos)]
  }

  /** Entry `p` with `w` added to its score. */
  function Rescore(prev: seq<Entry>, p: nat, w: real): (es: seq<Entry>)
    requires p < |prev|
    ensures Rescored(prev, es)
    ensures es[p].score == prev[p].score + w
    ensures forall i :: 0 <= i < |es| && i != p ==> es[i] == prev[i]
  {
    prev[p := prev[p].(score := prev[p].score + w)]
  }

  /** The accumulation loop over all hits, building the insertion-ordered `doc_dict`. */
  function Accumulate(hits: seq<Hit>): seq<Entry> {
    if |hits| == 0 then []
    else AddHit(Accumulate(hits[..|hits| - 1]), hits[|hits| - 1], |hits| - 1)
  }

  /** Each entry records where its key is first seen and the passage seen there. */
  ghost predicate FirstSightings(hits: seq<Hit>, es: seq<Entry>) {
    forall i :: 0 <= i < |es| ==>
      && es[i].first == FirstIndex(HitKeys(hits), es[i].key)
      && es[i].first < |hits|
      && es[i].doc == hits[es[i].first].doc
  }

  /** Every key among the hits has an entry. */
  predicate Covers(hits: seq<Hit>, es: seq<Entry>) {
    forall j :: 0 <= j < |hits| ==> hits[j].key in EntryKeys(es)
  }

  /** Each entry holds the full score of its key. */
  ghost predicate FullScores(hits: seq<Hit>, es: seq<Entry>) {
    forall i :: 0 <= i < |es| ==> es[i].score == Score(hits, es[i].key)
  }

  /** Entries appear in the order their keys were first seen. */
  predicate InFirstSeenOrder(es: seq<Entry>) {
    forall i, j :: 0 <= i < j < |es| ==> es[i].first < es[j].first
  }

  /** What the accumulator holds after visiting `hits`: an entry for every
      key, in first-seen order, each with the first passage under its key
      and the full score of its key. */
  ghost predicate Tallies(hits: seq<Hit>, es: seq<Entry>) {
    && FirstSightings(hits, es)
    && Covers(hits, es)
    && FullScores(hits, es)
    && InFirstSeenOrder(es)
  }

  /** Entries in first-seen order that record first sightings have distinct
      keys, and every entry's key is the key of some hit. */
  lemma TalliesKeys(hits: seq<Hit>, es: seq<Entry>)
    requires FirstSightings(hits, es) && InFirstSeenOrder(es)
    ensures Distinct(EntryKeys(es))
    ensures forall k :: k in EntryKeys(es) ==> k in HitKeys(hits)
  {
    forall k | k in EntryKeys(es)
      ensures k in HitKeys(hits)
    {
      var i :| 0 <= i < |es| && EntryKeys(es)[i] == k;
      assert HitKeys(hits)[es[i].first] == k;
    }
  }

  /** The accumulation loop keeps `Tallies` after every hit. */
  lemma {:induction false} AccumulateTallies(hits: seq<Hit>)
    ensures Tallies(hits, Accumulate(hits))
  {
    if |hits| > 0 {
      AccumulateTallies(hits[..|hits| - 1]);
      AddHitTallies(hits, Accumulate(hits[..|hits| - 1]));
    }
  }

  /** One turn of the loop turns the tallies of a prefix into the tallies
      of the prefix extended by one hit. */
  lemma AddHitTallies(hits: seq<Hit>, prev: seq<Entry>)
    requires |hits| > 0
    requires Tallies(hits[..|hits| - 1], prev)
    ensures Tallies(hits, AddHit(prev, hits[|hits| - 1], |hits| - 1))
  {
    var n := |hits|;
    var pre := hits[..n - 1];
    var h := hits[n - 1];
    TalliesKeys(pre, prev);
    assert forall i :: 0 <= i < |prev| ==> prev[i].first < n - 1;
    SightingsKept(hits, prev);
    var p := FirstIndex(EntryKeys(prev), h.key);
    if p < |prev| {
      var es := AddHit(prev, h, n - 1);
      assert es == Rescore(prev, p, h.weight);
      ScoresAfterExisting(hits, prev, p);
      RescoredKeepsSightings(hits, prev, es);
      RescoredKeepsCover(hits, prev, es, p);
    } else {
      NewKeyUnseen(hits, prev);
      ScoresAfterNew(hits, prev);
      StepNewKeys(hits, prev);
    }
  }

  /** Earlier entries keep their first sightings when a hit is appended. */
  lemma SightingsKept(hits: seq<Hit>, prev: seq<Entry>)
    requires |hits| > 0
    requires FirstSightings(hits[..|hits| - 1], prev)
    ensures FirstSightings(hits, prev)
  {
    var n := |hits|;
    var pre := hits[..n - 1];
    var keys := HitKeys(hits);
    assert HitKeys(pre) == keys[..n - 1];
    forall i | 0 <= i < |prev|
      ensures prev[i].first == FirstIndex(keys, prev[i].key)
      ensures prev[i].first < |hits| && prev[i].doc == hits[prev[i].first].doc
    {
      assert keys[..n - 1][prev[i].first] == prev[i].key;
      FirstIndexPrefix(keys, n - 1, prev[i].key);
      assert pre[prev[i].first] == hits[prev[i].first];
    }
  }

  /** Entries that differ only in their scores. */
  predicate Rescored(prev: seq<Entry>, es: seq<Entry>) {
    && |es| == |prev|
    && forall i :: 0 <= i < |es| ==> es[i].key == prev[i].key && es[i].doc == prev[i].doc && es[i].first == prev[i].first
  }

  lemma RescoredKeepsSightings(hits: seq<Hit>, prev: seq<Entry>, es: seq<Entry>)
    requires Rescored(prev, es)
    requires FirstSightings(hits, prev) && InFirstSeenOrder(prev)
    ensures FirstSightings(hits, es) && InFirstSeenOrder(es)
  {
  }

  lemma RescoredKeepsCover(hits: seq<Hit>, prev: seq<Entry>, es: seq<Entry>, p: nat)
    requires |hits| > 0
    requires Rescored(prev, es) && Covers(hits[..|hits| - 1], prev)
    requires p < |prev| && EntryKeys(prev)[p] == hits[|hits| - 1].key
    ensures Covers(hits, es)
  {
    assert EntryKeys(es) == EntryKeys(prev);
    forall j | 0 <= j < |hits| - 1
      ensures hits[j].key in EntryKeys(es)
    {
      assert hits[..|hits| - 1][j] == hits[j];
    }
  }

  /** A key the accumulator has no entry for has not been seen before. */
  lemma NewKeyUnseen(hits: seq<Hit>, prev: seq<Entry>)
    requires |hits| > 0
    requires Covers(hits[..|hits| - 1], prev)
    requires hits[|hits| - 1].key !in EntryKeys(prev)
    ensures hits[|hits| - 1].key !in HitKeys(hits[..|hits| - 1])
    ensures FirstIndex(HitKeys(hits), hits[|hits| - 1].key) == |hits| - 1
  {
    var n := |hits|;
    var h := hits[n - 1];
    var keys := HitKeys(hits);
    forall j | 0 <= j < n - 1
      ensures keys[j] != h.key
    {
      assert hits[..n - 1][j] == hits[j];
      assert hits[j].key in EntryKeys(prev);
    }
    assert HitKeys(hits[..n - 1]) == keys[..n - 1];
  }

  /** Appending an entry for a new key keeps sightings, coverage and order. */
  lemma StepNewKeys(hits: seq<Hit>, prev: seq<Entry>)
    requires |hits| > 0
    requires FirstSightings(hits, prev) && InFirstSeenOrder(prev) && Covers(hits[..|hits| - 1], prev)
    requires forall i :: 0 <= i < |prev| ==> prev[i].first < |hits| - 1
    requires FirstIndex(HitKeys(hits), hits[|hits| - 1].key) == |hits| - 1
    requires hits[|hits| - 1].key !in EntryKeys(prev)
    ensures var es := AddHit(prev, hits[|hits| - 1], |hits| - 1);
            FirstSightings(hits, es) && InFirstSeenOrder(es) && Covers(hits, es)
  {
    var n := |hits|;
    var h := hits[n - 1];
    var es := prev + [Entry(h.key, h.doc, h.weight, n - 1)];
    assert AddHit(prev, h, n - 1) == es;
    NewEntryCovers(hits, prev);
  }

  /** Appending an entry for the last hit's key covers every hit. */
  lemma NewEntryCovers(hits: seq<Hit>, prev: seq<Entry>)
    requires |hits| > 0 && Covers(hits[..|hits| - 1], prev)
    ensures var h := hits[|hits| - 1];
            Covers(hits, prev + [Entry(h.key, h.doc, h.weight, |hits| - 1)])
  {
    var n := |hits|;
    var h := hits[n - 1];
    var es := prev + [Entry(h.key, h.doc, h.weight, n - 1)];
    assert EntryKeys(es) == EntryKeys(prev) + [h.key];
    forall j | 0 <= j < n
      ensures hits[j].key in EntryKeys(es)
    {
      if j < n - 1 {
        assert hits[..n - 1][j] == hits[j];
        assert hits[j].key in EntryKeys(prev);
      } else {
        assert EntryKeys(es)[|prev|] == h.key;
      }
    }
  }

  /** A hit under a known key adds its weight to that key's entry only. */
  lemma ScoresAfterExisting(hits: seq<Hit>, prev: seq<Entry>, p: nat)
    requires |hits| > 0
    requires FullScores(hits[..|hits| - 1], prev) && Distinct(EntryKeys(prev))
    requires p == FirstIndex(EntryKeys(prev), hits[|hits| - 1].key) && p < |prev|
    ensures FullScores(hits, AddHit(prev, hits[|hits| - 1], |hits| - 1))
  {
    var h := hits[|hits| - 1];
    var es := Rescore(prev, p, h.weight);
    assert AddHit(prev, h, |hits| - 1) == es;
    forall i | 0 <= i < |es|
      ensures es[i].score == Score(hits, es[i].key)
    {
      if i != p {
        assert EntryKeys(prev)[i] != EntryKeys(prev)[p];
      }
    }
  }

  /** A hit under a new key leaves the scores of earlier entries alone and
      starts its own entry at its weight. */
  lemma ScoresAfterNew(hits: seq<Hit>, prev: seq<Entry>)
    requires |hits| > 0
    requires FullScores(hits[..|hits| - 1], prev)
    requires hits[|hits| - 1].key !in EntryKeys(prev)
    requires hits[|hits| - 1].key !in HitKeys(hits[..|hits| - 1])
    ensures FullScores(hits, AddHit(prev, hits[|hits| - 1], |hits| - 1))
  {
    var h := hits[|hits| - 1];
    assert AddHit(prev, h, |hits| - 1) == prev + [Entry(h.key, h.doc, h.weight, |hits| - 1)];
    ScoreOfAbsentKey(hits[..|hits| - 1], h.key);
    forall i | 0 <= i < |prev|
      ensures prev[i].key != h.key
    {
      assert EntryKeys(prev)[i] == prev[i].key;
    }
  }

  /** `a` comes before `b` in the ranking: a higher score, or the same score
      and an earlier first sighting (a stable sort keeps insertion order
      among equal scores, also with `reverse=True`). */
  predicate Precedes(a: Entry, b: Entry) {
    a.score > b.score || (a.score == b.score && a.first < b.first)
  }

  /** Ordered by score, highest first, ties in first-seen order. */
  predicate Ranked(es: seq<Entry>) {
    forall i, j :: 0 <= i < j < |es| ==> Precedes(es[i], es[j])
  }

  /** Inserts `e` after every entry scoring at least as much. */
  function InsertByScore(s: seq<Entry>, e: Entry): (r: seq<Entry>)
    ensures |r| == |s| + 1
    ensures multiset(r) == multiset(s) + multiset{e}
  {
    if |s| == 0 then [e]
    else if s[0].score >= e.score then
      assert s == [s[0]] + s[1..];
      [s[0]] + InsertByScore(s[1..], e)
    else [e] + s
  }

  /** `sorted(doc_dict.values(), key=score, reverse=True)`: a stable sort by
      descending score, as an insertion sort in visiting order. */
  function SortByScore(es: seq<Entry>): (r: seq<Entry>)
    ensures |r| == |es|
    ensures multiset(r) == multiset(es)
  {
    if |es| == 0 then []
    else
      assert es == es[..|es| - 1] + [es[|es| - 1]];
      InsertByScore(SortByScore(es[..|es| - 1]), es[|es| - 1])
  }

  /** Inserting an entry sighted after every ranked entry keeps the ranking. */
  lemma {:induction false} InsertKeepsRanked(s: seq<Entry>, e: Entry)
    requires Ranked(s)
    requires forall i :: 0 <= i < |s| ==> s[i].first < e.first
    ensures Ranked(InsertByScore(s, e))
  {
    if |s| > 0 && s[0].score >= e.score {
      var rest := s[1..];
      assert forall i :: 0 <= i < |rest| ==> rest[i] == s[i + 1];
      InsertKeepsRanked(rest, e);
      HeadPrecedesInsert(s, e);
      ConsRanked(s[0], InsertByScore(rest, e));
    } else if |s| > 0 {
      assert forall k :: 0 <= k < |s| ==> s[0].score >= s[k].score;
      ConsRanked(e, s);
    }
  }

  /** The head of a ranking precedes everything the insertion leaves behind it. */
  lemma HeadPrecedesInsert(s: seq<Entry>, e: Entry)
    requires Ranked(s) && |s| > 0 && s[0].score >= e.score && s[0].first < e.first
    ensures forall k :: 0 <= k < |InsertByScore(s[1..], e)| ==> Precedes(s[0], InsertByScore(s[1..], e)[k])
  {
    var rest := s[1..];
    var t := InsertByScore(rest, e);
    forall k | 0 <= k < |t|
      ensures Precedes(s[0], t[k])
    {
      assert t[k] in multiset(t);
      if t[k] != e {
        assert t[k] in multiset(rest);
        var m :| 0 <= m < |rest| && rest[m] == t[k];
        assert rest[m] == s[m + 1];
      }
    }
  }

  /** An entry that precedes every entry of a ranking can head it. */
  lemma ConsRanked(x: Entry, t: seq<Entry>)
    requires Ranked(t) && forall k :: 0 <= k < |t| ==> Precedes(x, t[k])
    ensures Ranked([x] + t)
  {
    var r := [x] + t;
    assert forall k :: 0 < k < |r| ==> r[k] == t[k - 1];
  }

  /** Sorting entries in first-seen order ranks them. */
  lemma {:induction false} SortByScoreRanked(es: seq<Entry>)
    requires InFirstSeenOrder(es)
    ensures Ranked(SortByScore(es))
  {
    if |es| > 0 {
      var pre := es[..|es| - 1];
      var e := es[|es| - 1];
      SortByScoreRanked(pre);
      var s := SortByScore(pre);
      forall i | 0 <= i < |s|
        ensures s[i].first < e.first
      {
        assert s[i] in multiset(pre);
        var m :| 0 <= m < |pre| && pre[m] == s[i];
      }
      InsertKeepsRanked(s, e);
    }
  }

  /** `r` holds the same entries as `acc`. */
  lemma SameEntries(acc: seq<Entry>, r: seq<Entry>)
    requires multiset(r) == multiset(acc)
    ensures forall i :: 0 <= i < |r| ==> r[i] in acc
    ensures forall m :: 0 <= m < |acc| ==> acc[m] in r
  {
    forall i | 0 <= i < |r|
      ensures r[i] in acc
    {
      assert r[i] in multiset(r);
    }
    forall m | 0 <= m < |acc|
      ensures acc[m] in r
    {
      assert acc[m] in multiset(acc);
    }
  }

  /** Entries drawn from the tallies record first sightings and full scores,
      and each holds the key of its own passage. */
  lemma DrawnEntries(hits: seq<Hit>, acc: seq<Entry>, r: seq<Entry>)
    requires KeyedRight(hits) && FirstSightings(hits, acc) && FullScores(hits, acc)
    requires forall i :: 0 <= i < |r| ==> r[i] in acc
    ensures FirstSightings(hits, r) && FullScores(hits, r)
    ensures forall i :: 0 <= i < |r| ==> r[i].key == CompositeKey(r[i].doc)
  {
    var keys := HitKeys(hits);
    forall i | 0 <= i < |r|
      ensures r[i].first == FirstIndex(keys, r[i].key) && r[i].first < |hits|
      ensures r[i].doc == hits[r[i].first].doc && r[i].score == Score(hits, r[i].key)
      ensures r[i].key == CompositeKey(r[i].doc)
    {
      var m :| 0 <= m < |acc| && acc[m] == r[i];
      assert keys[r[i].first] == r[i].key;
    }
  }

  /** A ranking of the tallies has one entry per key of the hits. */
  lemma DrawnKeys(hits: seq<Hit>, acc: seq<Entry>, r: seq<Entry>)
    requires Distinct(EntryKeys(acc)) && Covers(hits, acc)
    requires forall k :: k in EntryKeys(acc) ==> k in HitKeys(hits)
    requires Ranked(r)
    requires forall i :: 0 <= i < |r| ==> r[i] in acc
    requires forall m :: 0 <= m < |acc| ==> acc[m] in r
    ensures Distinct(EntryKeys(r))
    ensures forall k :: k in EntryKeys(r) <==> k in HitKeys(hits)
  {
    forall i, j | 0 <= i < j < |r|
      ensures EntryKeys(r)[i] != EntryKeys(r)[j]
    {
      var a :| 0 <= a < |acc| && acc[a] == r[i];
      var b :| 0 <= b < |acc| && acc[b] == r[j];
      assert Precedes(r[i], r[j]);
      assert EntryKeys(acc)[a] != EntryKeys(acc)[b];
    }
    forall k | k in EntryKeys(r)
      ensures k in HitKeys(hits)
    {
      var i :| 0 <= i < |r| && EntryKeys(r)[i] == k;
      var a :| 0 <= a < |acc| && acc[a] == r[i];
      assert EntryKeys(acc)[a] == k;
    }
    forall k | k in HitKeys(hits)
      ensures k in EntryKeys(r)
    {
      var j :| 0 <= j < |hits| && HitKeys(hits)[j] == k;
      var a :| 0 <= a < |acc| && EntryKeys(acc)[a] == k;
      var i :| 0 <= i < |r| && r[i] == acc[a];
      assert EntryKeys(r)[i] == k;
    }
  }

  /** What the ensemble returns for the hits it visited: one passage per
      distinct key, every key of the hits present, each passage the first one
      seen under its key, ordered by the summed weight of the key, highest
      first, and equal sums in the order the keys were first seen. */
  ghost predicate FusedFrom(hits: seq<Hit>, out: seq<Doc>) {
    var keys := HitKeys(hits);
    && Distinct(Keys(out))
    && (forall k :: k in Keys(out) <==> k in keys)
    && (forall i :: 0 <= i < |out| ==>
          FirstIndex(keys, Keys(out)[i]) < |hits| && out[i] == hits[FirstIndex(keys, Keys(out)[i])].doc)
    && (forall i, j :: 0 <= i < j < |out| ==> Score(hits, Keys(out)[i]) >= Score(hits, Keys(out)[j]))
    && (forall i, j :: 0 <= i < j < |out| && Score(hits, Keys(out)[i]) == Score(hits, Keys(out)[j]) ==>
          FirstIndex(keys, Keys(out)[i]) < FirstIndex(keys, Keys(out)[j]))
  }

  /** The passages of a ranking with the properties above are the fused result. */
  lemma RankedDocsFused(hits: seq<Hit>, r: seq<Entry>)
    requires FirstSightings(hits, r) && FullScores(hits, r) && Ranked(r)
    requires forall i :: 0 <= i < |r| ==> r[i].key == CompositeKey(r[i].doc)
    requires Distinct(EntryKeys(r))
    requires forall k :: k in EntryKeys(r) <==> k in HitKeys(hits)
    ensures FusedFrom(hits, Docs(r))
  {
    assert Keys(Docs(r)) == EntryKeys(r);
  }

  /** The ranked entries for a sequence of hits. */
  function Rank(hits: seq<Hit>): seq<Entry> {
    SortByScore(Accumulate(hits))
  }

  /** The passages of entries, in order. */
  function Docs(es: seq<Entry>): (ds: seq<Doc>)
    ensures |ds| == |es| && forall i :: 0 <= i < |es| ==> ds[i] == es[i].doc
  {
    seq(|es|, i requires 0 <= i < |es| => es[i].doc)
  }

  /** Accumulating and then sorting the hits fuses them. */
  lemma RankFuses(hits: seq<Hit>)
    requires KeyedRight(hits)
    ensures FusedFrom(hits, Docs(Rank(hits)))
  {
    var acc := Accumulate(hits);
    var r := SortByScore(acc);
    AccumulateTallies(hits);
    TalliesKeys(hits, acc);
    SortByScoreRanked(acc);
    SameEntries(acc, r);
    DrawnEntries(hits, acc, r);
    DrawnKeys(hits, acc, r);
    RankedDocsFused(hits, r);
  }

  /** `_get_relevant_documents` on the passages each retriever returned. */
  function Fuse(results: seq<seq<Doc>>, weights: seq<real>): (out: seq<Doc>)
    requires |results| == |weights|
    ensures FusedFrom(Occurrences(results, weights, |results|), out)
  {
    var hits := Occurrences(results, weights, |results|);
    OccurrencesKeyed(results, weights, |results|);
    RankFuses(hits);
    Docs(Rank(hits))
  }

  /** Every passage any retriever returned is represented in the fused
      result, and every passage of the result was returned by some retriever. */
  lemma FuseCoversResults(results: seq<seq<Doc>>, weights: seq<real>)
    requires |results| == |weights|
    ensures forall i, j :: 0 <= i < |results| && 0 <= j < |results[i]| ==>
              CompositeKey(results[i][j]) in Keys(Fuse(results, weights))
    ensures forall d :: d in Fuse(results, weights) ==>
              exists i :: 0 <= i < |results| && d in results[i]
  {
    var n := |results|;
    var hits := Occurrences(results, weights, n);
    var out := Fuse(results, weights);
    OccurrencesKeyed(results, weights, n);
    forall i, j | 0 <= i < n && 0 <= j < |results[i]|
      ensures CompositeKey(results[i][j]) in Keys(out)
    {
      OccurrenceAt(results, weights, n, i, j);
      assert HitKeys(hits)[Offset(results, i) + j] == CompositeKey(results[i][j]);
    }
    forall d | d in out
      ensures exists i :: 0 <= i < n && d in results[i]
    {
      var k :| 0 <= k < |out| && out[k] == d;
      var p := FirstIndex(HitKeys(hits), Keys(out)[k]);
      var i, j := OccurrenceOrigin(results, weights, n, p);
      assert d == results[i][j];
    }
  }

  /** No retrievers, or retrievers that all return nothing, give nothing. */
  lemma FuseOfNothing(results: seq<seq<Doc>>, weights: seq<real>)
    requires |results| == |weights|
    requires forall i :: 0 <= i < |results| ==> results[i] == []
    ensures Fuse(results, weights) == []
  {
    FuseCoversResults(results, weights);
    NoMemberEmpty(Fuse(results, weights));
  }

  /** What each retriever returns for `query`. */
  function Results(e: EnsembleRetriever, query: string): (rs: seq<seq<Doc>>)
    ensures |rs| == |e.retrievers|
    ensures forall i :: 0 <= i < |rs| ==> rs[i] == e.retrievers[i](query)
  {
    seq(|e.retrievers|, i requires 0 <= i < |e.retrievers| => e.retrievers[i](query))
  }

  /** `EnsembleRetriever._get_relevant_documents`: the fused results of all
      retrievers for `query`. */
  function GetRelevantDocuments(e: EnsembleRetriever, query: string): (out: seq<Doc>)
    requires e.Valid()
    ensures FusedFrom(Occurrences(Results(e, query), e.weights, |e.retrievers|), out)
    ensures forall i, j :: 0 <= i < |e.retrievers| && 0 <= j < |e.retrievers[i](query)| ==>
              CompositeKey(e.retrievers[i](query)[j]) in Keys(out)
    ensures forall d :: d in out ==> exists i :: 0 <= i < |e.retrievers| && d in e.retrievers[i](query)
  {
    var rs := Results(e, query);
    FuseCoversResults(rs, e.weights);
    Fuse(rs, e.weights)
  }

  /** Worked example: retriever A (weight 2.0) returns p1, p2 and retriever
      B (weight 1.0) returns p2, p3. The accumulator sees p1, then p2, whose
      second sighting raises it to 3.0, then p3. */
  lemma AccumulateExample(k1: string, k2: string, k3: string, p1: Doc, p2: Doc, p3: Doc)
    requires k1 != k2 && k2 != k3 && k1 != k3
    ensures Accumulate([Hit(k1, p1, 2.0), Hit(k2, p2, 2.0), Hit(k2, p2, 1.0), Hit(k3, p3, 1.0)])
         == [Entry(k1, p1, 2.0, 0), Entry(k2, p2, 3.0, 1), Entry(k3, p3, 1.0, 3)]
  {
    var hits := [Hit(k1, p1, 2.0), Hit(k2, p2, 2.0), Hit(k2, p2, 1.0), Hit(k3, p3, 1.0)];
    var e1, e2, e3 := Entry(k1, p1, 2.0, 0), Entry(k2, p2, 3.0, 1), Entry(k3, p3, 1.0, 3);
    var e2' := Entry(k2, p2, 2.0, 1);
    assert hits[..1][..0] == [];
    assert Accumulate(hits[..1]) == [e1];
    assert EntryKeys([e1]) == [k1];
    assert hits[..2][..1] == hits[..1];
    assert Accumulate(hits[..2]) == [e1, e2'];
    assert EntryKeys([e1, e2']) == [k1, k2];
    assert hits[..3][..2] == hits[..2];
    assert Accumulate(hits[..3]) == [e1, e2];
    assert EntryKeys([e1, e2]) == [k1, k2];
    assert hits[..3] == hits[..|hits| - 1];
  }

  /** The stable sort puts the 3.0 entry first and keeps the rest by score. */
  lemma SortExample(e1: Entry, e2: Entry, e3: Entry)
    requires e1.score == 2.0 && e2.score == 3.0 && e3.score == 1.0
    ensures SortByScore([e1, e2, e3]) == [e2, e1, e3]
  {
    assert [e1, e2][..1] == [e1];
    assert [e1, e2, e3][..2] == [e1, e2];
    assert SortByScore([e1]) == [e1];
    assert SortByScore([e1, e2]) == [e2, e1];
    assert [e2, e1][1..] == [e1];
    assert InsertByScore([e1], e3) == [e1, e3];
  }

  /** The visiting order of the worked example. */
  lemma OccurrencesExample(p1: Doc, p2: Doc, p3: Doc)
    ensures Occurrences([[p1, p2], [p2, p3]], [2.0, 1.0], 2)
         == [Hit(CompositeKey(p1), p1, 2.0), Hit(CompositeKey(p2), p2, 2.0),
             Hit(CompositeKey(p2), p2, 1.0), Hit(CompositeKey(p3), p3, 1.0)]
  {
    var results := [[p1, p2], [p2, p3]];
    var weights := [2.0, 1.0];
    assert Occurrences(results, weights, 1) == Tag([p1, p2], 2.0);
  }

  lemma DocsExample(e1: Entry, e2: Entry, e3: Entry)
    ensures Docs([e2, e1, e3]) == [e2.doc, e1.doc, e3.doc]
  {
  }

  /** The ranking of the worked example's hits. */
  lemma RankExample(k1: string, k2: string, k3: string, p1: Doc, p2: Doc, p3: Doc)
    requires k1 != k2 && k2 != k3 && k1 != k3
    ensures Docs(Rank([Hit(k1, p1, 2.0), Hit(k2, p2, 2.0), Hit(k2, p2, 1.0), Hit(k3, p3, 1.0)])) == [p2, p1, p3]
  {
    var e1, e2, e3 := Entry(k1, p1, 2.0, 0), Entry(k2, p2, 3.0, 1), Entry(k3, p3, 1.0, 3);
    AccumulateExample(k1, k2, k3, p1, p2, p3);
    SortExample(e1, e2, e3);
    DocsExample(e1, e2, e3);
  }

  /** The worked example end to end: with distinct keys the ensemble
      returns p2 (3.0), p1 (2.0), p3 (1.0). */
  lemma FuseExample(p1: Doc, p2: Doc, p3: Doc)
    requires CompositeKey(p1) != CompositeKey(p2) && CompositeKey(p2) != CompositeKey(p3)
    requires CompositeKey(p1) != CompositeKey(p3)
    ensures Fuse([[p1, p2], [p2, p3]], [2.0, 1.0]) == [p2, p1, p3]
  {
    OccurrencesExample(p1, p2, p3);
    RankExample(CompositeKey(p1), CompositeKey(p2), CompositeKey(p3), p1, p2, p3);
  }
}

=== FILE: formatting.dfy ===
/** The context text the answer generator and the evaluator put into the
    prompt: every passage under a header that names its source and, when it
    has one, its page, the blocks separated by a blank line. */
module Formatting {
  import opened Text
  import opened Documents

  /** `metadata.get("source", f"Documento {i+1}")` as the f-string prints it,
      for the passage at position `i`. */
  function SourceLabel(i: nat, d: Doc): string {
    ScalarText(MetaGet(d, "source", Str("Documento " + NatToDecimal(i + 1))))
  }

  /** `f" (Pagina {page})" if page else ""` with
      `page = metadata.get("page", "")`. */
  function PageInfo(d: Doc): string {
    var page := MetaGet(d, "page", Str(""));
    if Truthy(page) then " (Pagina " + ScalarText(page) + ")" else ""
  }

  /** What follows the "Documento" label in both headers: the source, the
      page, the rule, then the passage's text on its own lines. */
  function HeaderTail(i: nat, d: Doc): string {
    SourceLabel(i, d) + PageInfo(d) + " ---\n" + d.pageContent + "\n"
  }

  /** The answer generator's block for the passage at position `i`. */
  function RagBlock(i: nat, d: Doc): string {
    "--- Documento: " + HeaderTail(i, d)
  }

  /** The evaluator's block: the same header with the 1-based position
      after "Documento". */
  function EvalBlock(i: nat, d: Doc): string {
    "--- Documento " + NatToDecimal(i + 1) + ": " + HeaderTail(i, d)
  }

  function RagBlocks(docs: seq<Doc>): (bs: seq<string>)
    ensures |bs| == |docs|
    ensures forall i :: 0 <= i < |bs| ==> bs[i] == RagBlock(i, docs[i])
  {
    seq(|docs|, i requires 0 <= i < |docs| => RagBlock(i, docs[i]))
  }

  function EvalBlocks(docs: seq<Doc>): (bs: seq<string>)
    ensures |bs| == |docs|
    ensures forall i :: 0 <= i < |bs| ==> bs[i] == EvalBlock(i, docs[i])
  {
    seq(|docs|, i requires 0 <= i < |docs| => EvalBlock(i, docs[i]))
  }

  /** `RAGGenerator._format_docs`: the context is empty exactly when there
      are no passages. */
  function RagFormatDocs(docs: seq<Doc>): (r: string)
    ensures r == "" <==> |docs| == 0
  {
    JoinEmpty(RagBlocks(docs), "\n");
    Join(RagBlocks(docs), "\n")
  }

  /** `RAGEvaluator._format_docs`: the context is empty exactly when there
      are no passages. */
  function EvalFormatDocs(docs: seq<Doc>): (r: string)
    ensures r == "" <==> |docs| == 0
  {
    JoinEmpty(EvalBlocks(docs), "\n");
    Join(EvalBlocks(docs), "\n")
  }

  /** One more passage adds a blank line and its block, numbered by its
      position, at the end: the formatting loop one turn at a time. */
  lemma RagFormatAppend(docs: seq<Doc>, d: Doc)
    ensures |docs| == 0 ==> RagFormatDocs(docs + [d]) == RagBlock(0, d)
    ensures |docs| > 0 ==> RagFormatDocs(docs + [d]) == RagFormatDocs(docs) + "\n" + RagBlock(|docs|, d)
  {
    assert RagBlocks(docs + [d]) == RagBlocks(docs) + [RagBlock(|docs|, d)];
    if |docs| > 0 {
      JoinAppend(RagBlocks(docs), RagBlock(|docs|, d), "\n");
    }
  }

  lemma EvalFormatAppend(docs: seq<Doc>, d: Doc)
    ensures |docs| == 0 ==> EvalFormatDocs(docs + [d]) == EvalBlock(0, d)
    ensures |docs| > 0 ==> EvalFormatDocs(docs + [d]) == EvalFormatDocs(docs) + "\n" + EvalBlock(|docs|, d)
  {
    assert EvalBlocks(docs + [d]) == EvalBlocks(docs) + [EvalBlock(|docs|, d)];
    if |docs| > 0 {
      JoinAppend(EvalBlocks(docs), EvalBlock(|docs|, d), "\n");
    }
  }

  /** A passage's text is part of what follows its label. */
  lemma ContentInHeaderTail(i: nat, d: Doc)
    ensures IsInfix(d.pageContent, HeaderTail(i, d))
  {
    var head := SourceLabel(i, d) + PageInfo(d) + " ---\n";
    assert Slice(HeaderTail(i, d), |head|, |d.pageContent|) == d.pageContent;
  }

  /** Every passage's block, and so its text verbatim, is in the context. */
  lemma RagContentShown(docs: seq<Doc>)
    ensures forall i :: 0 <= i < |docs| ==> IsInfix(RagBlock(i, docs[i]), RagFormatDocs(docs))
    ensures forall i :: 0 <= i < |docs| ==> IsInfix(docs[i].pageContent, RagFormatDocs(docs))
  {
    var bs := RagBlocks(docs);
    JoinHasParts(bs, "\n");
    forall i | 0 <= i < |docs|
      ensures IsInfix(docs[i].pageContent, RagFormatDocs(docs))
    {
      ContentInHeaderTail(i, docs[i]);
      InfixConcat(docs[i].pageContent, "--- Documento: ", HeaderTail(i, docs[i]));
      InfixTransitive(docs[i].pageContent, bs[i], RagFormatDocs(docs));
    }
  }

  lemma EvalContentShown(docs: seq<Doc>)
    ensures forall i :: 0 <= i < |docs| ==> IsInfix(EvalBlock(i, docs[i]), EvalFormatDocs(docs))
    ensures forall i :: 0 <= i < |docs| ==> IsInfix(docs[i].pageContent, EvalFormatDocs(docs))
  {
    var bs := EvalBlocks(docs);
    JoinHasParts(bs, "\n");
    forall i | 0 <= i < |docs|
      ensures IsInfix(docs[i].pageContent, EvalFormatDocs(docs))
    {
      ContentInHeaderTail(i, docs[i]);
      InfixConcat(docs[i].pageContent, "--- Documento " + NatToDecimal(i + 1) + ": ", HeaderTail(i, docs[i]));
      InfixTransitive(docs[i].pageContent, bs[i], EvalFormatDocs(docs));
    }
  }

  /** The two blocks differ only in the number: the evaluator's block is the
      generator's with the 1-based position inserted before the colon. */
  lemma EvalBlockNumbersRagBlock(i: nat, d: Doc)
    ensures EvalBlock(i, d) == "--- Documento " + NatToDecimal(i + 1) + RagBlock(i, d)[13..]
  {
    assert RagBlock(i, d)[13..] == ": " + HeaderTail(i, d);
  }

  /** The number in an evaluator's header reads back as the position plus
      one: it is the run of digits after "--- Documento ", ended by a colon. */
  lemma EvalNumberReadsBack(i: nat, d: Doc)
    ensures var b := EvalBlock(i, d);
            var n := |NatToDecimal(i + 1)|;
            && 14 + n < |b|
            && b[..14] == "--- Documento "
            && (forall k :: 14 <= k < 14 + n ==> IsDigit(b[k]))
            && b[14 + n] == ':'
            && DecimalValue(b[14..14 + n]) == i + 1
  {
    var b := EvalBlock(i, d);
    var digits := NatToDecimal(i + 1);
    var n := |digits|;
    assert b == "--- Documento " + digits + (": " + HeaderTail(i, d));
    assert b[14..14 + n] == digits;
    DecimalRoundTrip(i + 1);
  }

  /** The header names the `source` metadata when there is one, and falls
      back to "Documento" and the 1-based position when there is none. */
  lemma SourceLabelCases(i: nat, d: Doc)
    ensures "source" !in d.metadata ==> SourceLabel(i, d) == "Documento " + NatToDecimal(i + 1)
    ensures "source" in d.metadata ==> SourceLabel(i, d) == ScalarText(d.metadata["source"])
  {
  }

  /** The page shows exactly when the `page` metadata is present and truthy,
      and then as its text in parentheses. */
  lemma PageInfoShown(d: Doc)
    ensures PageInfo(d) != "" <==> "page" in d.metadata && Truthy(d.metadata["page"])
    ensures PageInfo(d) != "" ==> PageInfo(d) == " (Pagina " + ScalarText(d.metadata["page"]) + ")"
  {
  }

  /** Page `0` is falsy, so a passage on page 0 is formatted like one with
      no page at all, while page 1 shows. */
  lemma PageZeroHidden()
    ensures PageInfo(Doc("x", map["page" := Int(0)])) == PageInfo(Doc("x", map[])) == ""
    ensures PageInfo(Doc("x", map["page" := Int(1)])) == " (Pagina 1)"
  {
    assert ScalarText(Int(1)) == "1" by {
      assert NatToDecimal(1) == [DigitChar(1)];
    }
  }
}

=== FILE: json.dfy ===
/** The JSON values the cache writes and reads back, and the encoding of a
    passage as `{"page_content": ..., "metadata": ...}`. */
module Json {
  import opened Wrappers
  import opened Documents

  /** A parsed JSON value. Numbers with a fraction are `JNum`; integers
      are `JInt`, as Python's `json` module keeps them apart. */
  datatype Json =
    | JNull
    | JBool(b: bool)
    | JInt(i: int)
    | JNum(r: real)
    | JStr(s: string)
    | JArray(items: seq<Json>)
    | JObject(fields: map<string, Json>)

  /** Why a stored value could not be turned back into what was saved: the
      `TypeError`, `KeyError` or validation error Python would raise. */
  datatype DecodeError =
    | NotAnObject
    | MissingField(name: string)
    | WrongType(name: string)

  function ScalarToJson(v: Scalar): Json {
    match v
    case Str(s) => JStr(s)
    case Int(i) => JInt(i)
    case Bool(b) => JBool(b)
    case Null => JNull
  }

  /** The scalar a JSON value reads back as, if it is one. */
  function JsonToScalar(j: Json): (r: Option<Scalar>)
    ensures r.Some? ==> ScalarToJson(r.value) == j
    ensures r.None? <==> j.JNum? || j.JArray? || j.JObject?
  {
    match j
    case JStr(s) => Some(Str(s))
    case JInt(i) => Some(Int(i))
    case JBool(b) => Some(Bool(b))
    case JNull => Some(Null)
    case _ => None
  }

  /** Decoding an encoded scalar gives it back. */
  lemma ScalarRoundTrip(v: Scalar)
    ensures JsonToScalar(ScalarToJson(v)) == Some(v)
  {
  }

  function MetaToJson(m: map<string, Scalar>): (j: map<string, Json>)
    ensures j.Keys == m.Keys
  {
    map k | k in m :: ScalarToJson(m[k])
  }

  /** Metadata read back from JSON: every value must be a scalar. */
  function MetaFromJson(fields: map<string, Json>): (r: Result<map<string, Scalar>, DecodeError>)
    ensures r.Ok? <==> forall k :: k in fields ==> JsonToScalar(fields[k]).Some?
    ensures r.Ok? ==> r.value.Keys == fields.Keys && MetaToJson(r.value) == fields
  {
    if forall k :: k in fields ==> JsonToScalar(fields[k]).Some? then
      var m := map k | k in fields :: JsonToScalar(fields[k]).value;
      assert MetaToJson(m) == fields;
      Ok(m)
    else Err(WrongType("metadata"))
  }

  /** `_serialize_document`. */
  function SerializeDoc(d: Doc): (j: Json)
    ensures j.JObject? && j.fields.Keys == {"page_content", "metadata"}
  {
    JObject(map["page_content" := JStr(d.pageContent), "metadata" := JObject(MetaToJson(d.metadata))])
  }

  /** `_deserialize_document`: `data["page_content"]` and `data["metadata"]`
      must exist, the content must be a string and the metadata an object of
      scalars; other fields are ignored. */
  function DeserializeDoc(j: Json): (r: Result<Doc, DecodeError>)
    ensures r.Ok? ==> j.JObject? && "page_content" in j.fields && "metadata" in j.fields
    ensures r.Ok? ==> j.fields["page_content"] == JStr(r.value.pageContent)
    ensures r.Ok? ==> j.fields["metadata"] == JObject(MetaToJson(r.value.metadata))
    ensures !j.JObject? ==> r == Err(NotAnObject)
    ensures j.JObject? && "page_content" !in j.fields ==> r == Err(MissingField("page_content"))
    ensures j.JObject? && "page_content" in j.fields && "metadata" !in j.fields ==> r == Err(MissingField("metadata"))
    ensures j.JObject? && "page_content" in j.fields && "metadata" in j.fields &&
            j.fields["page_content"].JStr? && j.fields["metadata"].JObject? &&
            (forall k :: k in j.fields["metadata"].fields ==> JsonToScalar(j.fields["metadata"].fields[k]).Some?)
            ==> r.Ok?
  {
    if !j.JObject? then Err(NotAnObject)
    else if "page_content" !in j.fields then Err(MissingField("page_content"))
    else if "metadata" !in j.fields then Err(MissingField("metadata"))
    else
      var content := j.fields["page_content"];
      var meta := j.fields["metadata"];
      if !content.JStr? then Err(WrongType("page_content"))
      else if !meta.JObject? then Err(WrongType("metadata"))
      else
        match MetaFromJson(meta.fields)
        case Err(e) => Err(e)
        case Ok(m) => Ok(Doc(content.s, m))
  }

  /** Deserialising a serialised passage gives back the same content and
      metadata. */
  lemma DocRoundTrip(d: Doc)
    ensures DeserializeDoc(SerializeDoc(d)) == Ok(d)
  {
    var fields := MetaToJson(d.metadata);
    forall k | k in fields
      ensures JsonToScalar(fields[k]) == Some(d.metadata[k])
    {
      ScalarRoundTrip(d.metadata[k]);
    }
    var m := MetaFromJson(fields).value;
    assert m == d.metadata;
  }
}

=== FILE: multi_query.dfy ===
/** `MultiQueryRetriever`: runs the base retriever once for the original
    query and once for every alternative the language model proposed, and
    returns the union of the passages, one per key, the first one met, in
    the order they were met. The model's reply is a parameter. */
module MultiQuery {
  import opened Seqs
  import opened Text
  import opened Documents
  import opened QueryExpansion
  import opened Ensemble

  /** The `unique_docs` loop: keeps a passage only when its key has not been
      met yet. */
  function DedupByKey(docs: seq<Doc>): (r: seq<Doc>)
    ensures |r| <= |docs|
    ensures forall i :: 0 <= i < |r| ==> r[i] in docs
  {
    if |docs| == 0 then []
    else
      var prev := DedupByKey(docs[..|docs| - 1]);
      var d := docs[|docs| - 1];
      assert forall x :: x in docs[..|docs| - 1] ==> x in docs;
      if CompositeKey(d) in Keys(prev) then prev else prev + [d]
  }

  /** One turn of the accumulator is one turn of the deduplication loop,
      when the accumulator's passages and keys are the loop's so far. */
  lemma AddHitDedups(acc: seq<Entry>, prev: seq<Doc>, d: Doc, w: real, pos: nat)
    requires Docs(acc) == prev && EntryKeys(acc) == Keys(prev)
    ensures var next := if CompositeKey(d) in Keys(prev) then prev else prev + [d];
            Docs(AddHit(acc, Hit(CompositeKey(d), d, w), pos)) == next &&
            EntryKeys(AddHit(acc, Hit(CompositeKey(d), d, w), pos)) == Keys(next)
  {
    var k := CompositeKey(d);
    var p := FirstIndex(EntryKeys(acc), k);
    if p < |acc| {
      assert Docs(Rescore(acc, p, w)) == Docs(acc);
      assert EntryKeys(Rescore(acc, p, w)) == EntryKeys(acc);
    } else {
      var es := acc + [Entry(k, d, w, pos)];
      assert Docs(es) == prev + [d];
      assert EntryKeys(es) == Keys(prev + [d]);
    }
  }

  /** Deduplication is the ensemble's accumulation over one retriever's
      passages, whatever its weight, with the scores dropped: both keep the
      first passage per key in the order keys are first met. */
  lemma {:induction false} DedupIsAccumulate(docs: seq<Doc>, w: real)
    ensures Docs(Accumulate(Tag(docs, w))) == DedupByKey(docs)
    ensures EntryKeys(Accumulate(Tag(docs, w))) == Keys(DedupByKey(docs))
  {
    if |docs| > 0 {
      var n := |docs|;
      var hits := Tag(docs, w);
      assert hits[..n - 1] == Tag(docs[..n - 1], w);
      DedupIsAccumulate(docs[..n - 1], w);
      assert hits[n - 1] == Hit(CompositeKey(docs[n - 1]), docs[n - 1], w);
      AddHitDedups(Accumulate(hits[..n - 1]), DedupByKey(docs[..n - 1]), docs[n - 1], w, n - 1);
    }
  }

  /** What `list(unique_docs.values())` holds: one passage per distinct key,
      every key of the input present, each the first passage under its key,
      in the order the keys are first met. */
  ghost predicate FirstPerKey(docs: seq<Doc>, r: seq<Doc>) {
    var keys := Keys(docs);
    && Distinct(Keys(r))
    && (forall k :: k in Keys(r) <==> k in keys)
    && (forall i :: 0 <= i < |r| ==>
          FirstIndex(keys, Keys(r)[i]) < |docs| && r[i] == docs[FirstIndex(keys, Keys(r)[i])])
    && (forall i, j :: 0 <= i < j < |r| ==> FirstIndex(keys, Keys(r)[i]) < FirstIndex(keys, Keys(r)[j]))
  }

  /** The entries of the tallies over one retriever's passages give the
      first passage per key. */
  lemma TalliedFirstPerKey(docs: seq<Doc>, es: seq<Entry>)
    requires Tallies(Tag(docs, 1.0), es)
    requires EntryKeys(es) == Keys(Docs(es))
    ensures FirstPerKey(docs, Docs(es))
  {
    var hits := Tag(docs, 1.0);
    assert HitKeys(hits) == Keys(docs);
    TalliesKeys(hits, es);
    TalliedSightings(docs, es);
    TalliedCoverage(docs, es);
  }

  lemma TalliedSightings(docs: seq<Doc>, es: seq<Entry>)
    requires FirstSightings(Tag(docs, 1.0), es)
    requires EntryKeys(es) == Keys(Docs(es))
    ensures forall i :: 0 <= i < |es| ==>
              FirstIndex(Keys(docs), Keys(Docs(es))[i]) < |docs| &&
              Docs(es)[i] == docs[FirstIndex(Keys(docs), Keys(Docs(es))[i])]
  {
    assert HitKeys(Tag(docs, 1.0)) == Keys(docs);
  }

  lemma TalliedCoverage(docs: seq<Doc>, es: seq<Entry>)
    requires Covers(Tag(docs, 1.0), es)
    requires EntryKeys(es) == Keys(Docs(es))
    ensures forall k :: k in Keys(docs) ==> k in Keys(Docs(es))
  {
    var hits := Tag(docs, 1.0);
    forall k | k in Keys(docs)
      ensures k in Keys(Docs(es))
    {
      var j :| 0 <= j < |docs| && Keys(docs)[j] == k;
      assert hits[j].key == k;
    }
  }

  /** `DedupByKey` keeps exactly the first passage of every key, in the
      order the keys are first met. */
  lemma DedupByKeyFirstPerKey(docs: seq<Doc>)
    ensures FirstPerKey(docs, DedupByKey(docs))
  {
    var es := Accumulate(Tag(docs, 1.0));
    DedupIsAccumulate(docs, 1.0);
    AccumulateTallies(Tag(docs, 1.0));
    TalliedFirstPerKey(docs, es);
  }

  /** Passages whose keys are already distinct pass through unchanged. */
  lemma {:induction false} DedupOfDistinct(docs: seq<Doc>)
    requires Distinct(Keys(docs))
    ensures DedupByKey(docs) == docs
  {
    if |docs| > 0 {
      var n := |docs|;
      var pre := docs[..n - 1];
      LastKeyIsNew(docs);
      DedupOfDistinct(pre);
      SplitLast(docs);
    }
  }

  /** With distinct keys, the last key is not among the earlier ones, and the
      earlier keys are distinct too. */
  lemma LastKeyIsNew(docs: seq<Doc>)
    requires |docs| > 0 && Distinct(Keys(docs))
    ensures Distinct(Keys(docs[..|docs| - 1]))
    ensures CompositeKey(docs[|docs| - 1]) !in Keys(docs[..|docs| - 1])
  {
    var n := |docs|;
    var ks := Keys(docs);
    assert Keys(docs[..n - 1]) == ks[..n - 1];
    assert ks[n - 1] == CompositeKey(docs[n - 1]);
  }

  /** Deduplicating twice is deduplicating once. */
  lemma DedupIdempotent(docs: seq<Doc>)
    ensures DedupByKey(DedupByKey(docs)) == DedupByKey(docs)
  {
    DedupByKeyFirstPerKey(docs);
    DedupOfDistinct(DedupByKey(docs));
  }

  /** The passages of all queries, query by query, in rank order. */
  function Flatten(results: seq<seq<Doc>>): (all: seq<Doc>)
    ensures forall d :: d in all <==> exists i :: 0 <= i < |results| && d in results[i]
  {
    if |results| == 0 then []
    else
      var pre := results[..|results| - 1];
      var all := Flatten(pre) + results[|results| - 1];
      assert forall i :: 0 <= i < |pre| ==> pre[i] == results[i];
      all
  }

  /** The base retriever's passages for each query. */
  function ResultsFor(base: Retriever, queries: seq<string>): (rs: seq<seq<Doc>>)
    ensures |rs| == |queries|
    ensures forall i :: 0 <= i < |rs| ==> rs[i] == base(queries[i])
  {
    seq(|queries|, i requires 0 <= i < |queries| => base(queries[i]))
  }

  /** Every key of the input survives deduplication. */
  lemma DedupKeepsKeys(docs: seq<Doc>)
    ensures forall k :: k in Keys(docs) ==> k in Keys(DedupByKey(docs))
  {
    DedupByKeyFirstPerKey(docs);
  }

  /** Every passage of any query is represented, and only passages some
      query returned appear. */
  lemma DedupOfFlatten(results: seq<seq<Doc>>)
    ensures forall i, d :: 0 <= i < |results| && d in results[i] ==> CompositeKey(d) in Keys(DedupByKey(Flatten(results)))
    ensures forall d :: d in DedupByKey(Flatten(results)) ==> exists i :: 0 <= i < |results| && d in results[i]
  {
    var all := Flatten(results);
    var out := DedupByKey(all);
    DedupKeepsKeys(all);
    forall i, d | 0 <= i < |results| && d in results[i]
      ensures CompositeKey(d) in Keys(out)
    {
      assert d in all;
      var j :| 0 <= j < |all| && all[j] == d;
      assert Keys(all)[j] == CompositeKey(d);
    }
  }

  /** The retrieval loop over a list of queries. */
  function RetrieveAll(base: Retriever, queries: seq<string>): (out: seq<Doc>)
    ensures FirstPerKey(Flatten(ResultsFor(base, queries)), out)
    ensures forall d :: d in out ==> exists i :: 0 <= i < |queries| && d in base(queries[i])
    ensures forall i, d :: 0 <= i < |queries| && d in base(queries[i]) ==> CompositeKey(d) in Keys(out)
  {
    var rs := ResultsFor(base, queries);
    DedupByKeyFirstPerKey(Flatten(rs));
    DedupOfFlatten(rs);
    DedupByKey(Flatten(rs))
  }

  /** `MultiQueryRetriever.get_relevant_documents`: the queries are the
      original one followed by the model's alternatives, and the passages of
      the original query always take part. */
  function GetRelevantDocuments(base: Retriever, query: string, reply: string): (out: seq<Doc>)
    ensures FirstPerKey(Flatten(ResultsFor(base, GenerateMultiQueries(query, reply))), out)
    ensures forall d :: d in base(query) ==> CompositeKey(d) in Keys(out)
    ensures forall d :: d in out ==> exists q :: q in GenerateMultiQueries(query, reply) && d in base(q)
  {
    var queries := GenerateMultiQueries(query, reply);
    var out := RetrieveAll(base, queries);
    forall d | d in out
      ensures exists q :: q in queries && d in base(q)
    {
      var i :| 0 <= i < |queries| && d in base(queries[i]);
      assert queries[i] in queries;
    }
    out
  }

  /** When no query finds anything, the result is empty. */
  lemma NoResultsNoDocs(base: Retriever, query: string, reply: string)
    requires forall q :: q in GenerateMultiQueries(query, reply) ==> base(q) == []
    ensures GetRelevantDocuments(base, query, reply) == []
  {
    NoMemberEmpty(GetRelevantDocuments(base, query, reply));
  }

  /** A blank reply leaves only the original query: the result is that
      query's passages with repeated keys dropped. */
  lemma BlankReplySearchesOnce(base: Retriever, query: string, reply: string)
    requires AllSpace(reply)
    ensures GetRelevantDocuments(base, query, reply) == DedupByKey(base(query))
  {
    OnlyOriginalWhenReplyBlank(query, reply);
    var queries := GenerateMultiQueries(query, reply);
    assert queries == [query];
    var rs := ResultsFor(base, queries);
    assert rs == [base(query)];
    assert rs[..0] == [];
    assert Flatten(rs) == base(query);
  }
}

=== FILE: query_expansion.dfy ===
/** Post-processing of the model's reply in `QueryTransformer.generate_multi_queries`:
    the reply is cut into lines, each line is stripped, blank lines are dropped,
    and the original question is put in front. The model call itself is not
    part of this module: its reply is a parameter. */
module QueryExpansion {
  import opened Text

  /** `[l.strip() for l in lines if l.strip()]`: the stripped non-blank lines,
      in their original order. */
  function NonBlankLines(lines: seq<string>): (r: seq<string>)
    ensures |r| <= |lines|
    ensures forall k :: 0 <= k < |r| ==> r[k] != "" && IsStripped(r[k])
    ensures forall j :: 0 <= j < |lines| && Strip(lines[j]) != "" ==> Strip(lines[j]) in r
  {
    if |lines| == 0 then []
    else
      var rest := NonBlankLines(lines[1..]);
      var s := Strip(lines[0]);
      assert forall j :: 1 <= j < |lines| ==> lines[j] == lines[1..][j - 1];
      if s != "" then [s] + rest else rest
  }

  /** Every surviving line is the strip of some input line: the index of
      the line it came from. */
  lemma {:induction false} NonBlankLineOrigin(lines: seq<string>, k: nat) returns (j: nat)
    requires k < |NonBlankLines(lines)|
    ensures j < |lines| && NonBlankLines(lines)[k] == Strip(lines[j])
  {
    var s := Strip(lines[0]);
    var rest := NonBlankLines(lines[1..]);
    assert NonBlankLines(lines) == if s != "" then [s] + rest else rest;
    if s != "" && k == 0 {
      j := 0;
    } else {
      var k' := if s != "" then k - 1 else k;
      assert NonBlankLines(lines)[k] == rest[k'];
      var j' := NonBlankLineOrigin(lines[1..], k');
      assert lines[1..][j'] == lines[j' + 1];
      j := j' + 1;
    }
  }

  /** Filtering distributes over concatenation, so the order of the lines is
      kept: the survivors of `a` come before the survivors of `b`. */
  lemma {:induction false} NonBlankLinesAppend(a: seq<string>, b: seq<string>)
    ensures NonBlankLines(a + b) == NonBlankLines(a) + NonBlankLines(b)
  {
    if |a| > 0 {
      assert (a + b)[1..] == a[1..] + b;
      NonBlankLinesAppend(a[1..], b);
    } else {
      assert a + b == b;
    }
  }

  /** Every line survives exactly when no line is blank, and none survives
      exactly when every line is blank. */
  lemma {:induction false} NonBlankLinesCount(lines: seq<string>)
    ensures |NonBlankLines(lines)| == |lines| <==> forall j :: 0 <= j < |lines| ==> Strip(lines[j]) != ""
    ensures |NonBlankLines(lines)| == 0 <==> forall j :: 0 <= j < |lines| ==> Strip(lines[j]) == ""
  {
    if |lines| > 0 {
      var rest := lines[1..];
      NonBlankLinesCount(rest);
      assert forall j :: 1 <= j < |lines| ==> lines[j] == rest[j - 1];
      var s := Strip(lines[0]);
      assert NonBlankLines(lines) == if s != "" then [s] + NonBlankLines(rest) else NonBlankLines(rest);
      assert |NonBlankLines(rest)| <= |rest|;
    }
  }

  /** The positions at or after `lo` of lines that are not blank. */
  function NonBlankIndicesFrom(lines: seq<string>, lo: nat): set<nat> {
    set j: nat | lo <= j < |lines| && Strip(lines[j]) != ""
  }

  /** The lines kept from position `lo` on are as many as the non-blank
      lines there. */
  lemma {:induction false} NonBlankCountFrom(lines: seq<string>, lo: nat)
    requires lo <= |lines|
    ensures |NonBlankLines(lines[lo..])| == |NonBlankIndicesFrom(lines, lo)|
    decreases |lines| - lo
  {
    if lo == |lines| {
      assert NonBlankIndicesFrom(lines, lo) == {};
    } else {
      NonBlankCountFrom(lines, lo + 1);
      assert lines[lo..][1..] == lines[lo + 1..];
      var rest := NonBlankIndicesFrom(lines, lo + 1);
      if Strip(lines[lo]) != "" {
        assert NonBlankIndicesFrom(lines, lo) == rest + {lo};
      } else {
        assert NonBlankIndicesFrom(lines, lo) == rest;
      }
    }
  }

  /** Exactly one line is kept per non-blank input line. */
  lemma NonBlankLinesExactCount(lines: seq<string>)
    ensures |NonBlankLines(lines)| == |set j: nat | j < |lines| && Strip(lines[j]) != ""|
  {
    NonBlankCountFrom(lines, 0);
    assert lines[0..] == lines;
    assert NonBlankIndicesFrom(lines, 0) == set j: nat | j < |lines| && Strip(lines[j]) != "";
  }

  /** The query list for `query` given the model's `reply`: the original
      question first and verbatim, then one stripped, non-empty, single-line
      reformulation per non-blank line of the reply. */
  function GenerateMultiQueries(query: string, reply: string): (r: seq<string>)
    ensures |r| >= 1 && r[0] == query
    ensures r[1..] == NonBlankLines(Split(reply, '\n'))
    ensures forall k :: 1 <= k < |r| ==> r[k] != "" && IsStripped(r[k]) && '\n' !in r[k]
  {
    var lines := Split(reply, '\n');
    var queries := NonBlankLines(lines);
    forall k | 0 <= k < |queries|
      ensures '\n' !in queries[k]
    {
      var j := NonBlankLineOrigin(lines, k);
      var i := StripIsInfix(lines[j]);
      assert forall x :: x in queries[k] ==> x in lines[j];
    }
    [query] + queries
  }

  /** Besides the original, there is one query per non-blank line of the
      reply. */
  lemma QueryCount(query: string, reply: string)
    ensures var lines := Split(reply, '\n');
            |GenerateMultiQueries(query, reply)| == 1 + |set j: nat | j < |lines| && Strip(lines[j]) != ""|
  {
    NonBlankLinesExactCount(Split(reply, '\n'));
  }

  /** Only the original question comes back exactly when the reply is all
      whitespace (line breaks included). */
  lemma OnlyOriginalWhenReplyBlank(query: string, reply: string)
    ensures |GenerateMultiQueries(query, reply)| == 1 <==> AllSpace(reply)
  {
    var lines := Split(reply, '\n');
    NonBlankLinesCount(lines);
    assert AllSpace("\n");
    JoinAllSpace(lines, "\n");
    assert forall j :: 0 <= j < |lines| ==> (Strip(lines[j]) == "" <==> AllSpace(lines[j]));
  }

  /** A one-line reply yields exactly two queries, the original and the
      stripped line, even when the two are the same text: the original is
      never deduplicated away. */
  lemma SingleLineReply(query: string, reply: string)
    requires '\n' !in reply && !AllSpace(reply)
    ensures GenerateMultiQueries(query, reply) == [query, Strip(reply)]
  {
    SplitUnique(reply, '\n', [reply]);
    assert Split(reply, '\n') == [reply];
  }
}

=== FILE: seqs.dfy ===
/** Generic facts about sequences used by both deduplicating retrievers:
    where a value is first seen, and lists without repeats. */
module Seqs {

  /** The position of the first `x` in `s`, or `|s|` when there is none. */
  function FirstIndex<T(==)>(s: seq<T>, x: T): (i: nat)
    ensures i <= |s|
    ensures i < |s| ==> s[i] == x
    ensures forall j :: 0 <= j < i ==> s[j] != x
    ensures i < |s| <==> x in s
  {
    if |s| == 0 then 0
    else if s[0] == x then 0
    else
      var i := 1 + FirstIndex(s[1..], x);
      assert x in s && x != s[0] ==> x in s[1..];
      i
  }

  /** A value first seen inside a prefix is first seen at the same place in
      the whole sequence. */
  lemma FirstIndexPrefix<T>(s: seq<T>, m: nat, x: T)
    requires m <= |s| && x in s[..m]
    ensures FirstIndex(s, x) == FirstIndex(s[..m], x)
  {
    var i := FirstIndex(s[..m], x);
    var i' := FirstIndex(s, x);
    assert s[..m][i] == s[i];
    assert i' <= i;
    assert s[..m][i'] == s[i'];
  }

  /** No value occurs twice. */
  predicate Distinct<T(==)>(s: seq<T>) {
    forall i, j :: 0 <= i < j < |s| ==> s[i] != s[j]
  }

  /** A non-empty sequence is its front followed by its last element. */
  lemma SplitLast<T>(s: seq<T>)
    requires |s| > 0
    ensures s == s[..|s| - 1] + [s[|s| - 1]]
  {
  }

  /** A sequence with no members is empty. */
  lemma NoMemberEmpty<T>(s: seq<T>)
    ensures (forall x :: x !in s) ==> s == []
  {
    if |s| > 0 {
      assert s[0] in s;
    }
  }
}

=== FILE: text.dfy ===
/** The handful of Python string operations the core relies on:
    `str.isspace`, `str.strip`, `str.split("\n")`, `"\n".join` and `str(int)`. */
module Text {
  import opened Seqs

  /** Python's `str.isspace` for a single character: the ASCII control
      whitespace, the information separators U+001C..U+001F, and the Unicode
      space separators and line/paragraph separators. */
  predicate IsSpace(c: char) {
    var n := c as int;
    || (9 <= n <= 13) || (28 <= n <= 32)
    || n == 0x85 || n == 0xA0 || n == 0x1680
    || (0x2000 <= n <= 0x200A)
    || n == 0x2028 || n == 0x2029 || n == 0x202F || n == 0x205F || n == 0x3000
  }

  predicate AllSpace(s: string) {
    forall k :: 0 <= k < |s| ==> IsSpace(s[k])
  }

  /** A string `str.strip()` leaves as it is: empty, or neither end is whitespace. */
  predicate IsStripped(s: string) {
    |s| == 0 || (!IsSpace(s[0]) && !IsSpace(s[|s| - 1]))
  }

  /** The first position at or after `i` that does not hold whitespace
      (`|s|` when there is none). */
  function SkipSpace(s: string, i: nat): (j: nat)
    requires i <= |s|
    ensures i <= j <= |s|
    ensures forall k :: i <= k < j ==> IsSpace(s[k])
    ensures j < |s| ==> !IsSpace(s[j])
    decreases |s| - i
  {
    if i < |s| && IsSpace(s[i]) then SkipSpace(s, i + 1) else i
  }

  /** The end of `s[..j]` once trailing whitespace is dropped, never below `lo`. */
  function SkipSpaceBack(s: string, lo: nat, j: nat): (e: nat)
    requires lo <= j <= |s|
    ensures lo <= e <= j
    ensures forall k :: e <= k < j ==> IsSpace(s[k])
    ensures e > lo ==> !IsSpace(s[e - 1])
    decreases j
  {
    if j > lo && IsSpace(s[j - 1]) then SkipSpaceBack(s, lo, j - 1) else j
  }

  /** `str.strip()`: the slice of `s` left after removing whitespace at both
      ends. It is empty exactly when `s` is all whitespace. */
  function Strip(s: string): (r: string)
    ensures IsStripped(r)
    ensures |r| == 0 <==> AllSpace(s)
  {
    var i := SkipSpace(s, 0);
    var e := SkipSpaceBack(s, i, |s|);
    s[i..e]
  }

  /** What `Strip` removes is whitespace: the result sits at some offset `i`
      of `s`, with only whitespace before and after it. */
  lemma StripIsInfix(s: string) returns (i: nat)
    ensures i + |Strip(s)| <= |s| && Strip(s) == s[i..i + |Strip(s)|]
    ensures AllSpace(s[..i]) && AllSpace(s[i + |Strip(s)|..])
  {
    i := SkipSpace(s, 0);
  }

  /** Stripping twice is stripping once. */
  lemma StripIdempotent(s: string)
    ensures Strip(Strip(s)) == Strip(s)
  {
    StrippedIsFixed(Strip(s));
  }

  /** A string with no whitespace at either end is its own strip. */
  lemma StrippedIsFixed(s: string)
    requires IsStripped(s)
    ensures Strip(s) == s
  {
  }

  /** `sep.join(parts)`. */
  function Join(parts: seq<string>, sep: string): string {
    if |parts| == 0 then ""
    else if |parts| == 1 then parts[0]
    else parts[0] + sep + Join(parts[1..], sep)
  }

  /** `a` occurs in `s` as a contiguous piece (Python's `a in s`). */
  predicate IsInfix(a: string, s: string) {
    exists off: nat :: off + |a| <= |s| && Slice(s, off, |a|) == a
  }

  /** The `n` characters of `s` from `off`. */
  function Slice(s: string, off: nat, n: nat): (r: string)
    requires off + n <= |s|
    ensures |r| == n
  {
    s[off..off + n]
  }

  /** A piece of either side is a piece of the concatenation. */
  lemma InfixConcat(a: string, p: string, t: string)
    ensures IsInfix(a, p) ==> IsInfix(a, p + t)
    ensures IsInfix(a, t) ==> IsInfix(a, p + t)
  {
    if IsInfix(a, p) {
      var off: nat :| off + |a| <= |p| && Slice(p, off, |a|) == a;
      assert Slice(p + t, off, |a|) == a;
    }
    if IsInfix(a, t) {
      var off: nat :| off + |a| <= |t| && Slice(t, off, |a|) == a;
      assert Slice(p + t, |p| + off, |a|) == a;
    }
  }

  /** A piece of a piece is a piece. */
  lemma InfixTransitive(a: string, b: string, s: string)
    requires IsInfix(a, b) && IsInfix(b, s)
    ensures IsInfix(a, s)
  {
    var i: nat :| i + |a| <= |b| && Slice(b, i, |a|) == a;
    var j: nat :| j + |b| <= |s| && Slice(s, j, |b|) == b;
    assert forall k :: 0 <= k < |b| ==> b[k] == s[j + k];
    assert forall k :: 0 <= k < |a| ==> a[k] == b[i + k];
    assert s[j + i..j + i + |a|] == a;
    assert Slice(s, j + i, |a|) == a;
  }

  /** Joining one more part adds the separator and the part at the end. */
  lemma {:induction false} JoinAppend(parts: seq<string>, p: string, sep: string)
    requires |parts| > 0
    ensures Join(parts + [p], sep) == Join(parts, sep) + sep + p
  {
    if |parts| > 1 {
      assert (parts + [p])[1..] == parts[1..] + [p];
      JoinAppend(parts[1..], p, sep);
    }
  }

  /** Every part occurs in the joined string. */
  lemma {:induction false} JoinHasParts(parts: seq<string>, sep: string)
    ensures forall k :: 0 <= k < |parts| ==> IsInfix(parts[k], Join(parts, sep))
  {
    if |parts| == 1 {
      assert Slice(Join(parts, sep), 0, |parts[0]|) == parts[0];
    } else if |parts| > 1 {
      var rest := Join(parts[1..], sep);
      JoinHasParts(parts[1..], sep);
      forall k | 0 <= k < |parts|
        ensures IsInfix(parts[k], Join(parts, sep))
      {
        if k == 0 {
          assert Slice(Join(parts, sep), 0, |parts[0]|) == parts[0];
        } else {
          assert parts[k] == parts[1..][k - 1];
          InfixConcat(parts[k], parts[0] + sep, rest);
        }
      }
    }
  }

  /** Joining at least one part whose first part is non-empty never gives
      the empty string, and joining nothing does. */
  lemma JoinEmpty(parts: seq<string>, sep: string)
    requires forall k :: 0 <= k < |parts| ==> parts[k] != ""
    ensures Join(parts, sep) == "" <==> |parts| == 0
  {
    if |parts| > 0 {
      JoinHasParts(parts, sep);
      assert IsInfix(parts[0], Join(parts, sep));
    }
  }

  /** `s.split(sep)` for a one-character separator: never empty, no piece
      holds the separator, and joining the pieces back gives `s`. */
  function Split(s: string, sep: char): (r: seq<string>)
    ensures |r| >= 1
    ensures forall k :: 0 <= k < |r| ==> sep !in r[k]
    ensures Join(r, [sep]) == s
  {
    if |s| == 0 then [""]
    else if s[0] == sep then
      var t := Split(s[1..], sep);
      assert [sep] + s[1..] == s;
      [""] + t
    else
      var t := Split(s[1..], sep);
      var r := [[s[0]] + t[0]] + t[1..];
      assert Join(r, [sep]) == [s[0]] + Join(t, [sep]) by {
        if |t| > 1 {
          assert r[1..] == t[1..];
        }
      }
      assert [s[0]] + s[1..] == s;
      r
  }

  /** The first piece of a split is everything before the first separator
      (the whole string when there is none). */
  lemma {:induction false} SplitFirstPiece(s: string, sep: char)
    ensures Split(s, sep)[0] == s[..FirstIndex(s, sep)]
  {
    if |s| > 0 && s[0] != sep {
      SplitFirstPiece(s[1..], sep);
      var k := FirstIndex(s[1..], sep);
      assert FirstIndex(s, sep) == 1 + k;
      assert s[..1 + k] == [s[0]] + s[1..][..k];
    }
  }

  /** Splitting is the only way to cut `s` into separator-free pieces that
      join back to `s`: the converse of `Split`'s contract. */
  lemma {:induction false} SplitUnique(s: string, sep: char, parts: seq<string>)
    requires |parts| >= 1
    requires forall k :: 0 <= k < |parts| ==> sep !in parts[k]
    requires Join(parts, [sep]) == s
    ensures parts == Split(s, sep)
    decreases |s|, |parts[0]|
  {
    if |parts[0]| == 0 {
      if |parts| == 1 {
        assert s == "";
      } else {
        assert s == [sep] + Join(parts[1..], [sep]);
        assert s[1..] == Join(parts[1..], [sep]);
        SplitUnique(s[1..], sep, parts[1..]);
        assert parts == [""] + parts[1..];
      }
    } else {
      var c := parts[0][0];
      var tail := [parts[0][1..]] + parts[1..];
      assert c != sep by { assert c in parts[0]; }
      assert forall k :: 0 <= k < |tail| ==> sep !in tail[k] by {
        forall k | 0 <= k < |tail|
          ensures sep !in tail[k]
        {
          if k == 0 {
            assert forall x :: x in parts[0][1..] ==> x in parts[0];
          } else {
            assert tail[k] == parts[k];
          }
        }
      }
      assert s == [c] + Join(tail, [sep]) by {
        if |parts| == 1 {
          assert parts[0] == [c] + parts[0][1..];
        } else {
          assert tail[1..] == parts[1..];
          assert parts[0] == [c] + parts[0][1..];
        }
      }
      assert |s| > 0 && s[0] == c && s[1..] == Join(tail, [sep]);
      SplitUnique(s[1..], sep, tail);
      assert parts[0] == [c] + tail[0];
      assert tail[1..] == parts[1..];
      assert parts == [[c] + tail[0]] + tail[1..];
    }
  }

  /** A joined string is all whitespace exactly when the separator is (or
      there is nothing to separate) and every piece is. */
  lemma {:induction false} JoinAllSpace(parts: seq<string>, sep: string)
    requires AllSpace(sep)
    ensures AllSpace(Join(parts, sep)) <==> forall k :: 0 <= k < |parts| ==> AllSpace(parts[k])
  {
    if |parts| > 1 {
      JoinAllSpace(parts[1..], sep);
      var rest := Join(parts[1..], sep);
      AllSpaceConcat(parts[0], sep);
      AllSpaceConcat(parts[0] + sep, rest);
      assert forall k :: 1 <= k < |parts| ==> parts[k] == parts[1..][k - 1];
    }
  }

  lemma AllSpaceConcat(a: string, b: string)
    ensures AllSpace(a + b) <==> AllSpace(a) && AllSpace(b)
  {
    if AllSpace(a + b) {
      assert forall k :: 0 <= k < |a| ==> a[k] == (a + b)[k];
      assert forall k :: 0 <= k < |b| ==> b[k] == (a + b)[|a| + k];
    }
  }

  /** The decimal digit for `d`. */
  function DigitChar(d: nat): char
    requires d < 10
  {
    "0123456789"[d]
  }

  lemma DigitValue(d: nat)
    requires d < 10
    ensures DigitChar(d) as int - '0' as int == d
  {
  }

  predicate IsDigit(c: char) {
    '0' <= c <= '9'
  }

  /** `str(n)` for a non-negative integer: only digits, never empty, and no
      leading zero except for zero itself. */
  function NatToDecimal(n: nat): (r: string)
    ensures |r| >= 1
    ensures forall k :: 0 <= k < |r| ==> IsDigit(r[k])
    ensures |r| > 1 ==> r[0] != '0'
    ensures r[0] == '0' ==> n == 0
  {
    if n < 10 then [DigitChar(n)]
    else NatToDecimal(n / 10) + [DigitChar(n % 10)]
  }

  /** The value of a string of decimal digits, read most significant first. */
  function DecimalValue(s: string): nat
    requires forall k :: 0 <= k < |s| ==> IsDigit(s[k])
  {
    if |s| == 0 then 0
    else
      assert IsDigit(s[|s| - 1]);
      DecimalValue(s[..|s| - 1]) * 10 + (s[|s| - 1] as int - '0' as int)
  }

  /** Reading back the decimal text of `n` gives `n`. */
  lemma {:induction false} DecimalRoundTrip(n: nat)
    ensures DecimalValue(NatToDecimal(n)) == n
  {
    var r := NatToDecimal(n);
    if n < 10 {
      DigitValue(n);
    } else {
      DecimalRoundTrip(n / 10);
      DigitValue(n % 10);
      assert r[..|r| - 1] == NatToDecimal(n / 10);
      assert r[|r| - 1] == DigitChar(n % 10);
    }
  }

  /** `str(i)` for any integer: a minus sign before the magnitude when negative. */
  function IntToDecimal(i: int): (r: string)
    ensures |r| >= 1
    ensures i < 0 <==> r[0] == '-'
  {
    if i < 0 then "-" + NatToDecimal(-i) else NatToDecimal(i)
  }
}

=== FILE: wrappers.dfy ===
/** Failure-carrying values used across the model: a missing value and an
    operation that either succeeds or reports why it did not. */
module Wrappers {

  datatype Option<+T> = None | Some(value: T)

  datatype Result<+T, +E> = Ok(value: T) | Err(error: E)
}
